=== FILE: README.md ===
# Uplift admin panel: a Dafny model of its client-side logic

This project models the logic of the Uplift admin panel, a React dashboard. It leaves the HTTP calls and the presentation out. The browser APIs the code leans on become parameters:

- `document.cookie` is a cookie jar;
- the base64-and-JSON decoding of a token payload, and `JSON.parse`/`JSON.stringify` of the user, are oracle functions;
- `Date.now()` is an integer clock;
- `window.location.protocol` is a flag;
- `window.confirm` is a boolean.

The model covers:

- **Session core** (`cookies.dfy`, `token.dfy`, `session.dfy`, `gateway.dfy`)
  - The cookie jar, with `setCookie`/`deleteCookie` as jar updates.
  - The `getCookie` lookup, done on the exact `"n1=v1; n2=v2"` string the browser returns. It splits on `"; name="` with JavaScript `split` semantics.
  - `verifyToken`.
  - The auth provider's restore, login and logout over the `{user, loading}` state and two cookies.
  - The HTTP client's bearer-header interceptor.
- **Login, routing** (`login_page.dfy`, `routes.dfy`)
  - The phone-then-code login page with its admin role gate.
  - The route table and the protected-route guard.
- **Lists and pagination** (`paging.dfy`, `user_management.dfy`, `plan_actions.dfy`)
  - The user list's filter handlers, row numbers, range label and previous/next buttons.
  - The delete dialog with its super-admin guard.
  - The plan list's pagination bar, which parses `page`/`limit` with `parseInt` and falls back when parsing fails.
- **Forms and dialogs** (`plan_form.dfy`, `pricing.dfy`, `topics.dfy`, `plan_selection.dfy`)
  - The plan editor's form state and feature list.
  - The `usePricing` hook and the pricing page's handlers.
  - The topics page and the topic form's validation schema.
  - The plan-promotion dialog's submit guard.
- **Mappers** (`user_utils.dfy`, `monthly_growth.dfy`)
  - Role and status badges and status labels.
  - The monthly growth chart's data mapping and `YYYY-MM` month labels.

Three helper modules model the JavaScript primitives the code relies on:

- `JsSplit` models `String.prototype.split`, with the round trip `Join(Split(s)) == s`.
- `JsTrim` models `trim`.
- `JsNumber` models `parseInt` with no radix, with the round trip `parseInt(String(n)) == n`, and the `x || fallback` idiom.

Some behaviours of the code are easy to misread; the model keeps them as written:

- **No role check in restore or login.** The provider has no role allow-list: `initializeAuth` and `login` accept any user (`src/providers/AuthProvider.tsx:63-68`, `:90-95`). The only role gate is on the login page (`src/pages/auth/Login.tsx:50`). `Session.LoginThenRestore` holds for every role.
- **No segment count in token validation.** A token is not required to have three dot-separated segments: `verifyToken` reads only `split('.')[1]` (`src/providers/AuthProvider.tsx:42`).
  - A token with no dot hands the text `undefined` to the decoder.
  - A token with exactly one dot is read like a full one (`Token.OnlyPayloadIsRead`).
- **The HTTP client's lookup is unguarded.** The provider's `getCookie` returns `null` when there is no document. The HTTP client's copy has no such guard (`src/api/api.ts:7-12`), so there it throws (`Cookies.GetCookieUnguarded`).
- **Plan updates send no body.** The pricing page's update call passes `{id, data}` (`src/pages/Pricing.tsx:34`). The mutation reads `{id, formData}` (`src/api/mutations/pricing.ts:28`). The model keeps this as written, and `PricingPage.UpdateSendsNoBody` states the result: the PATCH it sends carries no body.

## Model

| member | source | states |
|---|---|---|
| JsSplit.Split | src/providers/AuthProvider.tsx:29 | `split` always yields at least one piece |
| JsSplit.JoinSplit | src/providers/AuthProvider.tsx:29 | joining the pieces of a split with the separator gives back the original string |
| JsSplit.SplitInTwo | src/providers/AuthProvider.tsx:30 | a split has exactly two pieces iff the separator occurs exactly once, and the pieces are then the text before and after it |
| JsSplit.FirstPiece | src/providers/AuthProvider.tsx:30 | `split(c).shift()` is the longest prefix without `c`: the whole string, or the text up to the first `c` |
| JsTrim.TrimEmptyIffAllSpace | src/components/users/PlanSelectionModal.tsx:43 | `trim()` gives the empty string exactly when every character is JavaScript white space |
| JsTrim.Trim | src/components/users/PlanSelectionModal.tsx:43 | `trim()` removes leading and trailing JavaScript white space; what an empty result means is stated by `JsTrim.TrimEmptyIffAllSpace` |
| JsTrim.OrElse | src/pages/auth/Login.tsx:51-61 | `text \|\| fallback` on strings: a non-empty text is kept, and an empty one is replaced by the fallback (the login toasts, and the topic defaults at `src/components/topics/TopicForm.tsx:47-49`) |
| JsTrim.OrElseEmptyIff | src/components/topics/TopicForm.tsx:47-49 | the result is empty exactly when both operands are, so `title \|\| ""` can still be empty while a toast with a non-empty fallback never is |
| JsNumber.ParseIntShowNat | src/components/pricing/PlanActions.tsx:21 | `parseInt` of a natural number's decimal rendering is that number |
| JsNumber.ParseInt | src/components/pricing/PlanActions.tsx:21 | global `parseInt` with no radix; its meaning is stated by `JsNumber.ParseIntShowNat` (decimal renderings read back), `JsNumber.ParseIntNoDigits` (no digit gives `NaN`) and `JsNumber.ParseIntLeadingOther` |
| JsNumber.ShowNat | src/components/pricing/PlanActions.tsx:21 | `String(n)` of a page number: at least one decimal digit, no leading zero unless the number is 0, and `JsNumber.ParseIntShowNat` reads it back as `n` |
| JsNumber.ParseIntNoDigits | src/components/pricing/PlanActions.tsx:21-22 | a string with no decimal digit parses to `NaN` |
| JsNumber.ParseIntLeadingOther | src/components/dashboard/MonthlyGrowthChart.tsx:39 | a string starting with a character that is neither white space, a sign nor a decimal digit (`undefined`) parses to `NaN` |
| JsNumber.OrDefault | src/components/pricing/PlanActions.tsx:21-22 | `parseInt(x) \|\| d` keeps a non-zero number and falls back to `d` on `NaN` or 0 |
| Cookies.Live | src/providers/AuthProvider.tsx:28 | `document.cookie` lists exactly the cookies not yet expired, and on a well-formed jar finds under every name the unexpired cookie of the full jar |
| Cookies.Render | src/providers/AuthProvider.tsx:28 | entries joined by `"; "`, each `name=value`, or the bare value for a nameless cookie; `Cookies.LookupRendered` states that the lookup on it finds each stored non-empty value |
| Cookies.CookieString | src/providers/AuthProvider.tsx:28 | `document.cookie` is the rendering of the live cookies, nameless ones as their bare value; `Cookies.LookupFindsStored` and `Cookies.LookupNameless` state what the lookup on it returns |
| Cookies.ReadCookies | src/api/api.ts:8 | reading `document.cookie` throws without a document or when access is denied; `Cookies.GetCookie` and `Cookies.GetCookieCopiesAgree` state what the two `getCookie` copies make of it |
| Cookies.Remove | src/providers/AuthProvider.tsx:34-36 | removing a name leaves nothing under it, every other name as it was, and the jar well formed |
| Cookies.RemoveAbsent | src/providers/AuthProvider.tsx:34-36 | deleting a cookie the jar does not hold leaves the jar unchanged |
| Cookies.Upsert | src/providers/AuthProvider.tsx:21-24 | a stored cookie is found under its name afterwards and every other name finds what it found before |
| Cookies.UpsertWellFormed | src/providers/AuthProvider.tsx:21-24 | storing a parseable cookie keeps names unique and entries parseable |
| Cookies.SetCookie | src/providers/AuthProvider.tsx:21-24 | `setCookie` writes the pair with expiry `days` days ahead cut down to the whole second (`toUTCString` drops the milliseconds), path `/`, `SameSite=Strict`, and `Secure` iff the page is on https |
| Cookies.ExpiryDropsMilliseconds | src/providers/AuthProvider.tsx:21-22 | the written expiry is `days` days after the clock's whole second, so the cookie dies early by exactly the clock's milliseconds |
| Cookies.DeleteCookie | src/providers/AuthProvider.tsx:34-36 | `deleteCookie` writes an empty value expiring at the epoch with path `/` |
| Cookies.Store | src/providers/AuthProvider.tsx:23 | the browser applies a write: an expiry not in the future removes the name; otherwise the value, cut at its first `;`, is stored; other names are unchanged and the jar stays well formed |
| Cookies.WriteCookie | src/providers/AuthProvider.tsx:23 | an assignment to `document.cookie` succeeds on a page and keeps its jar well formed |
| Cookies.Lookup | src/providers/AuthProvider.tsx:28-31 | with exactly one occurrence of `"; name="` the result is the non-empty text after it up to the next `;`; absent or repeated names give `null`; a result is never empty and never contains `;` |
| Cookies.LookupRendered | src/providers/AuthProvider.tsx:26-32 | on the rendered string of a well-formed jar, the lookup returns the cookie's value when it is stored and non-empty, and `null` otherwise |
| Cookies.LookupFindsStored | src/providers/AuthProvider.tsx:26-32 | on a jar of parseable cookies (no `;` in a value, no `=` in a nameless cookie's value), the lookup of a non-empty name on `document.cookie` returns exactly the live, non-empty stored value |
| Cookies.LookupNameless | src/providers/AuthProvider.tsx:28-31 | the lookup of the empty name finds nothing, not even a nameless cookie, since its entry carries no `=` |
| Cookies.NamelessPairReadsAsNamed | src/providers/AuthProvider.tsx:28-30 | a nameless cookie whose value is `user=x` is read as `x` under `user`, although no cookie has that name |
| Cookies.SetThenStored | src/providers/AuthProvider.tsx:21-24 | a value written by `setCookie` reads back, cut at its first `;`, until its whole-second expiry and not after |
| Cookies.DeleteThenStored | src/providers/AuthProvider.tsx:34-36 | after `deleteCookie` nothing is read under the name at any later time |
| Cookies.StoreOtherName | src/providers/AuthProvider.tsx:21-24 | writing one cookie does not change what any other name reads |
| Cookies.GetCookie | src/providers/AuthProvider.tsx:26-32 | the provider's `getCookie` gives `null` with no document, throws when cookie access is denied, and otherwise returns the stored value of a named cookie; the empty name gives `null` |
| Cookies.GetCookieUnguarded | src/api/api.ts:7-12 | the HTTP client's `getCookie` throws a ReferenceError when there is no document |
| Cookies.GetCookieCopiesAgree | src/api/api.ts:7-12 | both `getCookie` copies agree whenever a document exists; without one, the guarded copy returns `null` and the other throws |
| Token.SegmentWithoutDot | src/providers/AuthProvider.tsx:42 | a token with no dot hands the decoder the text `undefined` |
| Token.PayloadSegment | src/providers/AuthProvider.tsx:42 | `token.split('.')[1]`; `Token.SegmentWithoutDot` and `Token.SegmentBetweenDots` state which text it is |
| Token.SegmentBetweenDots | src/providers/AuthProvider.tsx:42 | the payload read is the text between the first and second dots, or after a single dot |
| Token.VerifyToken | src/providers/AuthProvider.tsx:39-51 | a token is valid only when its payload decodes and its `exp` converts to a number (`ToNumber`: a digit string counts, a missing or non-numeric claim is `NaN`); every decode failure is `false` |
| Token.ValidUntilExpiry | src/providers/AuthProvider.tsx:46-47 | with an `exp` that converts to a number, the token is valid iff the clock in milliseconds is before `exp * 1000` |
| Token.ValidEarlier | src/providers/AuthProvider.tsx:46-47 | validity is monotone: a token valid now was valid at every earlier instant |
| Token.OnlyPayloadIsRead | src/providers/AuthProvider.tsx:42-43 | tokens with the same payload segment verify alike, whatever the header, the signature or the segment count |
| Session.InitialState | src/providers/AuthProvider.tsx:54-55 | on mount no user is signed in and loading is true |
| Session.ClearSession | src/providers/AuthProvider.tsx:71-77 | deleting both session cookies keeps the jar well formed |
| Session.ClearSessionEffect | src/providers/AuthProvider.tsx:71-77 | after the two deletions neither session cookie reads back, now or later, and every other cookie reads as before |
| Session.Restore | src/providers/AuthProvider.tsx:57-88 | loading is false after restore, whatever it found and whatever threw |
| Session.ReadSessionOnPage | src/providers/AuthProvider.tsx:60-61 | restore reads exactly the two stored session cookies |
| Session.ReadSession | src/providers/AuthProvider.tsx:60-61 | the two `getCookie` calls in order, the first throw ending the read; `Session.ReadSessionOnPage` states that on a page it reads exactly the two stored cookies |
| Session.ClearDocument | src/providers/AuthProvider.tsx:71-77 | both deletions on whatever the document is; `Session.ClearSessionEffect` states that on a page neither session cookie reads back afterwards and every other cookie is unchanged |
| Session.RestoreSignsInOnlyWhenValid | src/providers/AuthProvider.tsx:63-68 | a user is restored only when both cookies are stored, the token verifies and the user cookie parses to that user; the cookies are then left alone |
| Session.RestoreSignsInWhenValid | src/providers/AuthProvider.tsx:63-68 | conversely, those conditions set the user to whatever the user cookie parses to and keep both cookies |
| Session.RestoreClearsBadSession | src/providers/AuthProvider.tsx:69-78 | with both cookies present, a failing token or an unparseable user deletes both cookies and leaves the user as it was |
| Session.RestoreKeepsCookiesWhenOneMissing | src/providers/AuthProvider.tsx:63 | with either cookie missing, restore deletes nothing and leaves the user as it was |
| Session.RestoreWithoutCookies | src/providers/AuthProvider.tsx:80-84 | without a readable document, restore only ends loading: the missing document gives `null` cookies, and denied access is caught |
| Session.Login | src/providers/AuthProvider.tsx:90-95 | `login` succeeds iff there is a page; it sets the user with no role check and keeps the jar well formed |
| Session.LoginThenRestore | src/providers/AuthProvider.tsx:90-95 | a login followed by a fresh mount before the cookies' whole-second expiry seven days on restores the same user, when the stored texts survive the cookie syntax, the token still verifies and the JSON round-trips |
| Session.Logout | src/providers/AuthProvider.tsx:97-102 | `logout` succeeds iff there is a page and clears the user |
| Session.LogoutClears | src/providers/AuthProvider.tsx:97-102 | after logout neither session cookie reads back at any later time |
| Session.LogoutIdempotent | src/providers/AuthProvider.tsx:97-102 | logging out twice gives the same state and jar as logging out once |
| Gateway.Intercept | src/api/api.ts:22-31 | the interceptor throws exactly when there is no page; otherwise it keeps the method, the URL and every header other than `Authorization` |
| Gateway.BearerIffToken | src/api/api.ts:24-27 | `Authorization` is set to `Bearer <token>` iff a token is stored; with none, the config is returned unchanged |
| Gateway.LoginThenRequest | src/api/api.ts:24-27 | requests after a login, while the cookie lives, carry the token the login stored |
| Gateway.LogoutThenRequest | src/api/api.ts:25-28 | requests after a logout pass through unchanged |
| LoginPage.InitialForm | src/pages/auth/Login.tsx:14-16 | the page starts with an empty phone, an empty code and no code sent |
| LoginPage.Shown | src/pages/auth/Login.tsx:85 | the phone form shows until a code was sent; `LoginPage.BackKeepsPhone` and `LoginPage.CodeStepNeedsSentCode` state when each form is on screen |
| LoginPage.Run | src/pages/auth/Login.tsx:23-69 | the page's handlers applied to a run of events; `LoginPage.CodeStepNeedsSentCode` states that reaching the code form takes a confirmed send |
| LoginPage.Handle | src/pages/auth/Login.tsx:23-69 | going back clears the code and the sent flag; no event except a confirmed send changes the sent flag |
| LoginPage.SubmitPhoneSendsIffPhone | src/pages/auth/Login.tsx:23-37 | a send request goes out iff the phone is non-empty; otherwise the only effect is the error toast |
| LoginPage.SubmitCodeVerifiesIffCode | src/pages/auth/Login.tsx:42-47 | a verify request goes out iff the code is non-empty; otherwise the only effect is the error toast |
| LoginPage.RoleGate | src/pages/auth/Login.tsx:48-57 | after a successful verification, `login` is called and the page navigates to the dashboard iff the role is ADMIN or SUPER_ADMIN; otherwise only an error toast appears |
| LoginPage.OnlyVerificationLogsIn | src/pages/auth/Login.tsx:23-69 | no other event calls `login` or navigates |
| LoginPage.BackKeepsPhone | src/pages/auth/Login.tsx:65-68 | back keeps the phone, empties the code and shows the phone form |
| LoginPage.CodeStepNeedsSentCode | src/pages/auth/Login.tsx:31-35 | a run of events that ends on the code form includes a confirmed send, and so does the part after every back |
| Routes.MatchPath | src/routes/AppRoutest.tsx:40-61 | `/login` is the login route, the protected routes are exactly `/dashboard`, `/users` and `/settings`, and every other path redirects to `/dashboard` |
| Routes.Resolve | src/routes/AppRoutest.tsx:40-61 | the screen for a path; `Routes.ContentNeedsSession`, `Routes.LoginUnguarded`, `Routes.UnknownPathsGoHome` and `Routes.RedirectsSettle` state what it shows |
| Routes.Guard | src/routes/AppRoutest.tsx:16-22 | the guard shows the spinner while loading, the page when a user is signed in, and otherwise redirects to `/login` |
| Routes.ContentNeedsSession | src/routes/AppRoutest.tsx:19-21 | a protected page's content appears only after restore, with a user signed in |
| Routes.LoginUnguarded | src/routes/AppRoutest.tsx:44 | the login page shows in every session state |
| Routes.UnknownPathsGoHome | src/routes/AppRoutest.tsx:60-61 | `/` and every path outside the table redirect to `/dashboard` |
| Routes.RedirectsSettle | src/routes/AppRoutest.tsx:60-61 | following redirects reaches a screen that is not a redirect within two hops |
| Routes.NoSpinnerAfterRestore | src/routes/AppRoutest.tsx:19 | once restore has run, the guard never shows the spinner again |
| UserUtils.RoleBadgeCases | src/utils/userUtils.ts:1-7 | SUPER_ADMIN, and only it, gets the destructive badge; ADMIN, and only it, gets the default badge; no role is outlined |
| UserUtils.RoleBadge | src/utils/userUtils.ts:1-7 | `getRoleBadgeVariant`; `UserUtils.RoleBadgeCases` and `UserUtils.RoleBadgesDistinct` state which role gets which badge |
| UserUtils.StatusBadge | src/utils/userUtils.ts:9-16 | `getStatusBadgeVariant`; `UserUtils.OutlineIffUnknownStatus` and `UserUtils.StatusBadgesDistinct` state which status gets which badge |
| UserUtils.FormatStatus | src/utils/userUtils.ts:18-25 | `formatStatus`; `UserUtils.FormatStatusMatchesMenu` and `UserUtils.FormatStatusPassesUnknown` state its labels |
| UserUtils.RoleBadgesDistinct | src/utils/userUtils.ts:1-7 | the three roles of the filter menu get three different badges |
| UserUtils.OutlineIffUnknownStatus | src/utils/userUtils.ts:9-16 | the outline badge marks exactly the statuses the menu does not offer |
| UserUtils.StatusBadgesDistinct | src/utils/userUtils.ts:11-13 | the three known statuses get pairwise different badges |
| UserUtils.FormatStatusMatchesMenu | src/utils/userUtils.ts:18-22 | each known status formats to the label the status menu shows for it |
| UserUtils.FormatStatusPassesUnknown | src/utils/userUtils.ts:23 | any other status is shown as it is |
| UserUtils.LabelsCanCollide | src/utils/userUtils.ts:18-24 | a status spelled `Faol` displays like ACTIVE but gets a different badge |
| Paging.RangeEnd | src/components/users/UserManagement.tsx:213 | the label's end is the page's end capped by the total, never past either |
| Paging.RowNumber | src/components/users/UserManagement.tsx:76-80 | the 1-based position of a row in the whole list; `Paging.RowsContiguous` and `Paging.RowsDisjoint` state that pages number their rows consecutively and without overlap |
| Paging.RowsContiguous | src/components/users/UserManagement.tsx:76-80 | the last row of a page and the first row of the next one are consecutive numbers |
| Paging.RowsDisjoint | src/components/users/UserManagement.tsx:76-80 | rows on two different pages never share a number |
| Paging.RangeMatchesRows | src/components/users/UserManagement.tsx:212-213 | the label runs from the first row's number to the last row's number of the page |
| UserManagement.InitialFilters | src/components/users/UserManagement.tsx:18-23 | the list starts on page 1 of 10, newest first, with no search, role or status filter |
| UserManagement.MenuChoice | src/components/users/UserManagement.tsx:40 | the menu choice `all` clears the filter; any other choice is stored verbatim |
| UserManagement.OnSearch | src/components/users/UserManagement.tsx:33-35 | a search sets the term and page 1 and changes nothing else |
| UserManagement.OnRoleFilter | src/components/users/UserManagement.tsx:37-43 | a role choice sets the role filter and page 1 and changes nothing else |
| UserManagement.OnStatusFilter | src/components/users/UserManagement.tsx:45-51 | a status choice sets the status filter and page 1 and changes nothing else |
| UserManagement.OnPageChange | src/components/users/UserManagement.tsx:53-55 | a page change sets only the page |
| UserManagement.OnPrevious | src/components/users/UserManagement.tsx:220-221 | the previous button acts iff there is a previous page, and goes to `(page \|\| 1) - 1` |
| UserManagement.OnNext | src/components/users/UserManagement.tsx:231-232 | the next button acts iff there is a next page, and goes to `(page \|\| 1) + 1` |
| UserManagement.FilterChangesResetPage | src/components/users/UserManagement.tsx:33-51 | every filter change sends the list back to page 1 and keeps the page size |
| UserManagement.MissingPagingDefaults | src/components/users/UserManagement.tsx:76-80 | a missing or zero page and limit read as page 1 of 10, so the first row is number 1 |
| UserManagement.CurrentPage | src/components/users/UserManagement.tsx:77 | `filters.page \|\| 1`; `UserManagement.MissingPagingDefaults` states that a missing or zero page reads as 1 |
| UserManagement.PageSize | src/components/users/UserManagement.tsx:78 | `filters.limit \|\| 10`; `UserManagement.MissingPagingDefaults` states that a missing or zero limit reads as 10 |
| UserManagement.RowNumber | src/components/users/UserManagement.tsx:76-80 | `getRowNumber`; `UserManagement.NextPageContinuesNumbering` and `UserManagement.PagesDoNotOverlap` state its numbering |
| UserManagement.RangeLabel | src/components/users/UserManagement.tsx:212-213 | the "showing X to Y" numbers; `UserManagement.RangeLabelMatchesRows` states that they span the page's rows |
| UserManagement.ShowsPagination | src/components/users/UserManagement.tsx:209 | the bar shows when there is more than one page; `UserManagement.PaginationShownIffOverflow` states when that is |
| UserManagement.PaginationShownIffOverflow | src/components/users/UserManagement.tsx:209 | with the server counting `ceil(total / limit)` pages, the bar appears exactly when the total exceeds the page size |
| UserManagement.DeleteDisabled | src/components/users/UserManagement.tsx:196 | the delete button of a SUPER_ADMIN row is disabled; `UserManagement.ClickDelete` and `UserManagement.NoSuperAdminDeleted` state what that prevents |
| UserManagement.NextPageContinuesNumbering | src/components/users/UserManagement.tsx:76-80 | the next page's first row is numbered one past this page's last full row |
| UserManagement.PagesDoNotOverlap | src/components/users/UserManagement.tsx:76-80 | two different pages never show the same row number |
| UserManagement.RangeLabelMatchesRows | src/components/users/UserManagement.tsx:212-213 | the range label spans exactly the numbers of the rows the page holds, and never passes the total |
| UserManagement.InitialDeleteDialog | src/components/users/UserManagement.tsx:26-28 | nothing is pending for deletion and the dialog is closed |
| UserManagement.ClickDelete | src/components/users/UserManagement.tsx:192-197 | a click on a super admin's disabled delete button does nothing; any other click records the user and opens the dialog |
| UserManagement.DismissDialog | src/components/users/UserManagement.tsx:255-257 | closing the dialog without confirming keeps the pending user |
| UserManagement.ConfirmDelete | src/components/users/UserManagement.tsx:67-73 | with nothing pending, confirm does nothing; otherwise one delete goes out for the pending id, and the dialog closes and forgets the user |
| UserManagement.NoSuperAdminDeleted | src/components/users/UserManagement.tsx:196 | through the page's buttons, every id sent for deletion belongs to a clicked user whose row was not a super admin's |
| PlanActions.OnPrevious | src/components/pricing/PlanActions.tsx:39 | previous requests a page iff `hasPrev`, and that page is the parsed current page minus one |
| PlanActions.OnNext | src/components/pricing/PlanActions.tsx:57 | next requests a page iff `hasNext`, and that page is the parsed current page plus one |
| PlanActions.PageLinks | src/components/pricing/PlanActions.tsx:44-49 | the links are 1..totalPages in order, and none when totalPages is not positive; a link is active iff it is the current page; at most one link is active, and one is iff the current page is in range |
| PlanActions.PageFromDigits | src/components/pricing/PlanActions.tsx:21 | a page sent as decimal digits is read as that number, and `0` falls back to page 1 |
| PlanActions.CurrentPage | src/components/pricing/PlanActions.tsx:21 | `parseInt(page) \|\| 1`; `PlanActions.PageFromDigits` and `PlanActions.NonNumericFallsBack` state what it reads |
| PlanActions.ItemsPerPage | src/components/pricing/PlanActions.tsx:22 | `parseInt(limit) \|\| 10`; `PlanActions.NonNumericFallsBack` states the fallback to 10 |
| PlanActions.Label | src/components/pricing/PlanActions.tsx:27 | the "Showing X to Y of N" numbers; `PlanActions.LabelBounds` states their bounds |
| PlanActions.OnLinkClick | src/components/pricing/PlanActions.tsx:48 | a numbered link requests its own page; `PlanActions.PageLinks` states that every link requests a page from 1 to `totalPages` |
| PlanActions.NonNumericFallsBack | src/components/pricing/PlanActions.tsx:21-22 | a page and a limit with no digits fall back to page 1 of 10 |
| PlanActions.LabelBounds | src/components/pricing/PlanActions.tsx:27 | the label's end never passes the total, and with a positive page size the range is non-empty exactly when the current page starts inside the list |
| PlanActions.ControlsStayInRange | src/components/pricing/PlanActions.tsx:38-59 | when the flags agree with the page number, previous and next only request the neighbouring pages that exist |
| PlanForm.DefaultForm | src/components/pricing/PlanForm.tsx:34-51 | the defaults: empty title, no features, price 0, UZS, 30 days, MONTHLY, ACTIVE, one user, ten submissions |
| PlanForm.ResetForm | src/components/pricing/PlanForm.tsx:53-76 | the form resets to the edited plan itself, or to the defaults when there is none |
| PlanForm.HandleChange | src/components/pricing/PlanForm.tsx:78-80 | `handleChange` sets the named field and leaves every other field as it was |
| PlanForm.FeatureChange | src/components/pricing/PlanForm.tsx:82-86 | editing a rendered feature replaces only that entry, keeps the length, and leaves other fields alone |
| PlanForm.FeatureList | src/components/pricing/PlanForm.tsx:83 | `formData.features \|\| []`; `PlanForm.FeatureChange`, `PlanForm.AddFeature` and `PlanForm.RemoveFeatureAtIndex` state how each edit changes it |
| PlanForm.AddFeature | src/components/pricing/PlanForm.tsx:88-90 | `addFeature` appends one empty feature and keeps the others |
| PlanForm.SpliceOne | src/components/pricing/PlanForm.tsx:94 | `splice(index, 1)` removes the entry at the index, counts a negative index from the end, and removes nothing past the end |
| PlanForm.RemoveFeature | src/components/pricing/PlanForm.tsx:92-96 | `removeFeature` splices the feature list and leaves other fields alone |
| PlanForm.RemoveFeatureAtIndex | src/components/pricing/PlanForm.tsx:92-96 | removing at a rendered index shortens the list by one and keeps the other features in order |
| PlanForm.AddThenRemoveLast | src/components/pricing/PlanForm.tsx:88-96 | adding a feature and removing the new last one restores the list |
| PlanForm.FeatureChangeUndo | src/components/pricing/PlanForm.tsx:82-86 | editing a feature and restoring its old text restores the list |
| PlanForm.DefaultsHaveNoFeatures | src/components/pricing/PlanForm.tsx:57-74 | after a reset with no plan, edits to other fields leave the feature list empty |
| PricingHook.InitialState | src/hooks/usePricing.ts:6-14 | the plans start on page 1 of 10, newest first, with the editor closed and no plan being edited |
| PricingHook.UpdateFilter | src/hooks/usePricing.ts:16-18 | `updateFilter` sets only the given key |
| PricingHook.HandleCreate | src/hooks/usePricing.ts:20-23 | create opens the editor with no plan |
| PricingHook.HandleEdit | src/hooks/usePricing.ts:25-28 | edit opens the editor on the plan |
| PricingHook.HandleCloseForm | src/hooks/usePricing.ts:30-33 | close shuts the editor and forgets the plan |
| PricingHook.OperationsPreserveValid | src/hooks/usePricing.ts:13-33 | a plan is only ever being edited while the editor is open, and every operation keeps it so |
| PricingHook.EditorShowsEditedPlan | src/pages/Pricing.tsx:83-89 | after an edit the editor's form is the plan itself; after a create or a close it is the defaults |
| PricingPage.HandleSubmit | src/pages/Pricing.tsx:32-39 | submit creates iff no plan is being edited, and always leaves the editor closed |
| PricingPage.PlanId | src/pages/Pricing.tsx:34 | `editingPlan._id!`; `PricingPage.EditThenSubmit` states that the update goes to that id |
| PricingPage.RequestOf | src/api/mutations/pricing.ts:9-47 | the request each plan mutation sends; `PricingPage.EditThenSubmit`, `PricingPage.CreateThenSubmit` and `PricingPage.UpdateSendsNoBody` state its verb, URL and body |
| PricingPage.ShowsActions | src/pages/Pricing.tsx:73-79 | the actions bar, create button included, is rendered only with pagination; `PricingPage.ActionsNeedPagination` relates it to the table |
| PricingPage.ActionsNeedPagination | src/pages/Pricing.tsx:66-79 | with no response there are neither actions nor rows; with the actions shown the table holds the response's plans |
| PricingPage.HandleDelete | src/pages/Pricing.tsx:41-45 | a delete of that id goes out iff the confirmation returns true |
| PricingPage.HandlePageChange | src/pages/Pricing.tsx:47-49 | a page change sets only the page filter |
| PricingPage.TablePlans | src/pages/Pricing.tsx:67 | the table gets the plans, or an empty list when there is no data |
| PricingPage.EditThenSubmit | src/pages/Pricing.tsx:32-39 | editing a plan and submitting sends a PATCH to that plan's id, and the editor ends closed |
| PricingPage.CreateThenSubmit | src/pages/Pricing.tsx:32-39 | creating and submitting sends a POST carrying the form |
| PricingPage.UpdateSendsNoBody | src/api/mutations/pricing.ts:28-29 | every update the page sends hands the form over as `data`, while the PATCH body is read from `formData` and is empty |
| PricingPage.EditUnchangedThenSubmit | src/components/pricing/PlanForm.tsx:98-101 | opening a plan and submitting with no edits sends that exact plan as the update data |
| PricingPage.SubmitClosesEditor | src/pages/Pricing.tsx:38 | after any submit the editor is closed and the hook is still consistent |
| TopicForm.Validate | src/components/topics/TopicForm.tsx:25-29 | the schema reports a title issue iff the title is empty, a question issue iff the question is empty, and a type issue iff the type is not TASK_ONE or TASK_TWO, with the source's messages |
| TopicForm.ValidateAccepts | src/components/topics/TopicForm.tsx:25-29 | the schema accepts exactly the values with a non-empty title and question and a known type |
| TopicForm.BlankTextPasses | src/components/topics/TopicForm.tsx:26-27 | nothing is trimmed, so a title and question of spaces pass |
| TopicForm.Defaults | src/components/topics/TopicForm.tsx:46-50 | the defaults are the topic's fields when editing (an empty type becomes TASK_ONE), and empty text with TASK_ONE when creating |
| TopicForm.Submit | src/components/topics/TopicForm.tsx:55 | `onSubmit` receives the values, unchanged, iff the schema accepts them |
| TopicForm.UntouchedCreateRefused | src/components/topics/TopicForm.tsx:46-50 | an untouched create form is refused for its title and question, and for nothing else |
| TopicForm.UntouchedEditResubmits | src/components/topics/TopicForm.tsx:46-55 | an untouched edit form of an acceptable topic submits that topic's own fields |
| TopicsPage.InitialState | src/pages/CreateTopic.tsx:24-27 | nothing is selected and both dialogs are closed |
| TopicsPage.HandleCreate | src/pages/CreateTopic.tsx:34-37 | create clears the selection and opens the dialog, and leaves the delete dialog alone |
| TopicsPage.HandleEdit | src/pages/CreateTopic.tsx:39-42 | edit selects the topic and opens the dialog |
| TopicsPage.HandleDelete | src/pages/CreateTopic.tsx:44-47 | delete records the topic and opens the delete dialog |
| TopicsPage.CloseDialog | src/components/topics/TopicDialog.tsx:43 | cancelling closes the dialog and changes nothing else |
| TopicsPage.HandleSubmit | src/pages/CreateTopic.tsx:49-56 | submit updates the selected topic's id iff one is selected, and creates otherwise; the dialog closes and the selection is kept |
| TopicsPage.RequestOf | src/api/mutations/topics.ts:10-39 | the request each topic mutation sends; `TopicsPage.EditThenSubmit` and `TopicsPage.CreateThenSubmit` state its verb, URL and body |
| TopicsPage.ConfirmDelete | src/pages/CreateTopic.tsx:58-64 | with nothing pending, confirm does nothing; otherwise one delete goes out for the pending id, and the delete dialog closes and forgets it |
| TopicsPage.TaskBadge | src/pages/CreateTopic.tsx:66-70 | TASK_ONE gets the secondary `Task 1` badge and every other type gets `Task 2` |
| TopicsPage.BadgeMatchesMenu | src/components/topics/TopicForm.tsx:83-84 | each accepted type's badge label is the label the form's type menu shows for it |
| TopicsPage.RowNumber | src/pages/CreateTopic.tsx:125 | row `index` is numbered as on page 1 of the fixed 100-topic query |
| TopicsPage.ShowContent | src/pages/CreateTopic.tsx:95-172 | the table shows the rows iff there is no error, nothing is loading and at least one topic arrived |
| TopicsPage.EditThenSubmit | src/pages/CreateTopic.tsx:49-56 | editing a topic and submitting sends a PATCH with the form's values to that topic's id |
| TopicsPage.CreateThenSubmit | src/pages/CreateTopic.tsx:49-56 | creating and submitting sends a POST with the form's values |
| TopicsPage.SelectionOutlivesDialog | src/pages/CreateTopic.tsx:34-56 | after a submit or a cancel the state still names the edited topic, but reopening the dialog by create clears it and by edit replaces it, so the stale selection is never observed |
| TopicsPage.DeleteOnce | src/pages/CreateTopic.tsx:58-64 | confirming a delete sends it once; confirming again sends nothing |
| PlanSelection.InitialState | src/components/users/PlanSelectionModal.tsx:39-40 | the plan choice and the reason start empty |
| PlanSelection.SelectPlan | src/components/users/PlanSelectionModal.tsx:72 | choosing a plan keeps the reason |
| PlanSelection.EditReason | src/components/users/PlanSelectionModal.tsx:138 | typing the reason keeps the plan choice |
| PlanSelection.HandleSubmit | src/components/users/PlanSelectionModal.tsx:42-49 | promote is called iff a plan is chosen and the reason is not blank, with the reason as typed; the inputs then reset and closing is requested; otherwise nothing changes |
| PlanSelection.DisabledIffNothingToSend | src/components/users/PlanSelectionModal.tsx:158 | when nothing is loading, the button is enabled iff a click would promote; blank means white space only |
| PlanSelection.ReasonSentUntrimmed | src/components/users/PlanSelectionModal.tsx:44 | a padded reason is sent with its padding |
| PlanSelection.SpacesOnlyReasonRefused | src/components/users/PlanSelectionModal.tsx:43 | a reason of spaces only sends nothing and keeps both inputs |
| PlanSelection.UsersLabel | src/components/users/PlanSelectionModal.tsx:115 | a limit of 0 reads `Unlimited users`; any other limit is shown as its number |
| PlanSelection.UnlimitedOnlyForZero | src/components/users/PlanSelectionModal.tsx:115 | only a limit of 0 reads as unlimited |
| MonthlyGrowth.MonthsTable | src/components/dashboard/MonthlyGrowthChart.tsx:38 | the month table has twelve distinct entries, none of them `undefined` |
| MonthlyGrowth.MonthName | src/components/dashboard/MonthlyGrowthChart.tsx:39 | month numbers 1 to 12 name their table entry; anything else, `NaN` included, is `undefined` |
| MonthlyGrowth.UndefinedIffOutOfRange | src/components/dashboard/MonthlyGrowthChart.tsx:38-39 | a month name reads `undefined` exactly when the parsed number is `NaN` or outside 1 to 12 |
| MonthlyGrowth.ChartData | src/components/dashboard/MonthlyGrowthChart.tsx:29-33 | the chart data keeps the length, the order and each item's month, count and revenue |
| MonthlyGrowth.Render | src/components/dashboard/MonthlyGrowthChart.tsx:12-33 | missing or empty data shows the empty card; otherwise the bars are the chart data, each tick labelled from its month |
| MonthlyGrowth.DatePieces | src/components/dashboard/MonthlyGrowthChart.tsx:37 | in `YYYY-MM` or `YYYY-MM-DD`, the destructured year and month number are the first two pieces |
| MonthlyGrowth.Year | src/components/dashboard/MonthlyGrowthChart.tsx:37 | the first `-` piece; `MonthlyGrowth.DatePieces` states that it is the year of a `YYYY-MM` or `YYYY-MM-DD` text |
| MonthlyGrowth.MonthNumber | src/components/dashboard/MonthlyGrowthChart.tsx:37 | the second `-` piece, `undefined` when there is none; `MonthlyGrowth.DatePieces` states that it is the month number of a date |
| MonthlyGrowth.FormatMonth | src/components/dashboard/MonthlyGrowthChart.tsx:36-40 | `formatMonth`; `MonthlyGrowth.FormatMonthOfDate`, `MonthlyGrowth.FormatMonthWithoutDash` and `MonthlyGrowth.FormatMonthOutOfRange` state its labels |
| MonthlyGrowth.FormatMonthOfDate | src/components/dashboard/MonthlyGrowthChart.tsx:36-40 | a `YYYY-MM` month or `YYYY-MM-DD` date whose month number parses to 1 to 12 is labelled with that month's abbreviation and the year |
| MonthlyGrowth.TwoDigitMonth | src/components/dashboard/MonthlyGrowthChart.tsx:39 | a two-digit month number such as `03` contains no `-` and parses to its decimal value |
| MonthlyGrowth.FormatMonthWithoutDash | src/components/dashboard/MonthlyGrowthChart.tsx:37-39 | a month text with no `-` is labelled `undefined` followed by the text |
| MonthlyGrowth.FormatMonthOutOfRange | src/components/dashboard/MonthlyGrowthChart.tsx:39 | a month number outside 1 to 12, or one that does not parse, is labelled `undefined` |

## Left out

- The network:
  - axios itself and the server's answers;
  - React Query's deduplication, `keepPreviousData` and the `invalidateQueries` prefix matching.
  - The query keys the mutations invalidate are not modelled either: `['plans']` in `src/api/mutations/pricing.ts:16`, `['topics']` in `src/api/mutations/topics.ts:12`, and `['users']` in `src/api/mutations/users.ts:9` and `src/api/mutations/userPlans.ts:12`.
  - Server answers enter the model as events (`LoginPage.Event`) or as parameters.
- Browser APIs:
  - `atob` and `JSON.parse` of the token payload form one decoder parameter.
  - `JSON.parse`/`JSON.stringify` of the user are parameters.
  - Because of this, whether `atob("undefined")` throws is up to the decoder passed in.
  - The decoder also applies JavaScript's `ToNumber` to `exp`, as the `>` comparison does.
- Cookie details:
  - The cookie path, domain and `SameSite` matching.
  - Ordering of cookies by path.
  - Trimming of spaces and tabs around a written value.
  - The browser's own name syntax.
  - The jar keeps one cookie per name, with expiry and value only.
- Time and numbers:
  - JavaScript's double-precision arithmetic (`Date.now() / 1000`, `days * 86400000`) is read as exact arithmetic on integers and reals.
  - Plan prices and counts are integers.
- Routing:
  - React Router's case-insensitive and trailing-slash matching: paths are compared as exact strings.
  - The `Layout` around protected pages.
- Presentation, which has no behaviour to specify:
  - charts other than the monthly growth chart;
  - the statistics cards, sidebar, header, dialogs' markup and plan table;
  - the unused plan filters component.
  - Locale formatting (`Intl.NumberFormat`, `toLocaleString`, `toLocaleDateString`).
  - The theme provider, which toggles DOM classes.
- Other pages:
  - The settings page's own logout through js-cookie, which removes only `access_token` (`src/pages/Settings.tsx:10`). It is a different operation from the provider's `logout`.
  - The user list's detail dialog (`handleViewUser`), which only opens a read-only view.
- Form internals:
  - The schema library's own message for a bad task type is left as "the library's message".
  - The plan selection dialog's cancel button only requests closing, so it is not modelled beyond that.
  - The login inputs' `required` attributes (`src/pages/auth/Login.tsx:100`, `:136`) and the code input's `maxLength={6}` (`:139`) belong to the browser's form validation, which is not modelled. With that validation in place an empty field is never submitted, so the two empty-field toasts show only when it is bypassed.
- Cookies.Store: text after the first `;` of a value is dropped, whereas the browser reads it as attributes: a `max-age=0` there deletes the cookie and a foreign `domain` makes the browser reject the write. The size limit of about 4096 bytes, past which a write is silently dropped, is not modelled either. The values written are a token and a serialised user, which the model leaves as parameters. A control character in a name or value (0x00-0x08, 0x0A-0x1F, 0x7F) makes the browser reject the write, which `Store` does not model. A write needs a non-empty name; the code writes only `access_token` and `user`.
- Cookies.LookupFindsStored: says nothing about a jar holding a nameless cookie whose value contains `=` (set by another script or the server). The browser lists such a cookie as `n=v` text, which reads under the name `n`, as `Cookies.NamelessPairReadsAsNamed` shows. `Cookies.WellFormed` leaves such jars out.
- PlanForm.FeatureChange: requires an index of a rendered feature input; writing past the end of a JavaScript array, which leaves holes, is not modelled because the page only calls it for rendered inputs.

=== FILE: cookies.dfy ===
/**
 * The browser cookie jar as the admin panel sees it through `document.cookie`,
 * and the two cookie helpers built on it: `setCookie`/`deleteCookie` become
 * jar updates, and the `getCookie` lookup is modelled on the exact string the
 * browser hands back ("n1=v1; n2=v2"). The clock is a parameter (milliseconds
 * since the epoch).
 */
module Cookies {
  import opened Wrappers
  import opened JsSplit

  /** A stored cookie: its name, its value and its expiry instant in milliseconds. */
  datatype Cookie = Cookie(name: string, value: string, expiresMs: int)

  /** The cookies visible to the page, in the order `document.cookie` lists them. */
  type Jar = seq<Cookie>

  /** A name the `name=value` syntax can carry without ambiguity; the empty name included. */
  predicate NameChars(n: string) {
    ';' !in n && '=' !in n
  }

  /** A name the helpers are called with: non-empty, and carried without ambiguity. */
  predicate ValidName(n: string) {
    n != "" && NameChars(n)
  }

  /**
   * A cookie `document.cookie` lists so that it reads back under its own
   * name only: no `;` in the value, and a nameless cookie (listed as its
   * bare value) holding no `=` that would make it read as a pair.
   */
  predicate Parseable(c: Cookie) {
    NameChars(c.name) && ';' !in c.value && (c.name == "" ==> '=' !in c.value)
  }

  /** The jars the lookup is exact on: parseable entries, one cookie per name. */
  predicate WellFormed(jar: Jar) {
    && (forall i :: 0 <= i < |jar| ==> Parseable(jar[i]))
    && (forall i, j :: 0 <= i < j < |jar| ==> jar[i].name != jar[j].name)
  }

  /** The cookie stored under `name`, if any. */
  function FindCookie(jar: Jar, name: string): (r: Option<Cookie>)
    ensures r.Some? ==> r.value in jar && r.value.name == name
    ensures r.None? ==> forall i :: 0 <= i < |jar| ==> jar[i].name != name
  {
    if jar == [] then None
    else if jar[0].name == name then Some(jar[0])
    else FindCookie(jar[1..], name)
  }

  /** The cookies that have not expired at `nowMs`; the browser hides the others. */
  function Live(jar: Jar, nowMs: int): (r: Jar)
    ensures forall c :: c in r <==> c in jar && c.expiresMs > nowMs
    ensures WellFormed(jar) ==> WellFormed(r)
    ensures WellFormed(jar) ==> forall m :: FindCookie(r, m) == Unexpired(FindCookie(jar, m), nowMs)
  {
    if jar == [] then []
    else
      var rest := Live(jar[1..], nowMs);
      var r := if jar[0].expiresMs > nowMs then [jar[0]] + rest else rest;
      assert forall c :: c in rest ==> c in jar[1..];
      assert WellFormed(jar) ==> WellFormed(jar[1..]);
      r
  }

  /** A cookie found in the jar, provided it is still alive at `nowMs`. */
  function Unexpired(c: Option<Cookie>, nowMs: int): Option<Cookie> {
    if c.Some? && c.value.expiresMs > nowMs then c else None
  }

  /** The jar without the cookie called `name`. */
  function Remove(jar: Jar, name: string): (r: Jar)
    ensures forall c :: c in r <==> c in jar && c.name != name
    ensures FindCookie(r, name) == None
    ensures forall m :: m != name ==> FindCookie(r, m) == FindCookie(jar, m)
    ensures WellFormed(jar) ==> WellFormed(r)
  {
    if jar == [] then []
    else
      var rest := Remove(jar[1..], name);
      assert forall c :: c in rest ==> c in jar[1..];
      assert WellFormed(jar) ==> WellFormed(jar[1..]);
      if jar[0].name == name then rest else [jar[0]] + rest
  }

  /** Removing a name the jar does not hold changes nothing. */
  lemma {:induction false} RemoveAbsent(jar: Jar, name: string)
    requires FindCookie(jar, name).None?
    ensures Remove(jar, name) == jar
    decreases |jar|
  {
    if jar != [] {
      RemoveAbsent(jar[1..], name);
      assert [jar[0]] + jar[1..] == jar;
    }
  }

  /** The jar with `c` stored: replacing the cookie of the same name in place, or appended. */
  function Upsert(jar: Jar, c: Cookie): (r: Jar)
    ensures forall x :: x in r ==> x in jar || x == c
    ensures FindCookie(r, c.name) == Some(c)
    ensures forall m :: m != c.name ==> FindCookie(r, m) == FindCookie(jar, m)
  {
    if jar == [] then [c]
    else if jar[0].name == c.name then
      var r := [c] + jar[1..];
      assert r[1..] == jar[1..];
      r
    else
      var rest := Upsert(jar[1..], c);
      var r := [jar[0]] + rest;
      assert r[1..] == rest;
      r
  }

  /** Storing a parseable cookie keeps the jar well formed. */
  lemma {:induction false} UpsertWellFormed(jar: Jar, c: Cookie)
    requires WellFormed(jar) && ValidName(c.name) && ';' !in c.value
    ensures WellFormed(Upsert(jar, c))
    decreases |jar|
  {
    if jar == [] {
      WellFormedCons(c, []);
      assert [c] + [] == [c];
    } else if jar[0].name != c.name {
      var rest := Upsert(jar[1..], c);
      assert WellFormed(jar[1..]);
      UpsertWellFormed(jar[1..], c);
      forall x | x in rest ensures x.name != jar[0].name {
        if x != c {
          var i :| 0 <= i < |jar[1..]| && jar[1..][i] == x;
          assert x == jar[i + 1];
        }
      }
      WellFormedCons(jar[0], rest);
    } else {
      assert WellFormed(jar[1..]);
      forall x | x in jar[1..] ensures x.name != c.name {
        var i :| 0 <= i < |jar[1..]| && jar[1..][i] == x;
        assert x == jar[i + 1];
      }
      WellFormedCons(c, jar[1..]);
    }
  }

  /** A parseable cookie whose name the rest does not use extends a well-formed jar. */
  lemma WellFormedCons(x: Cookie, rest: Jar)
    requires WellFormed(rest) && Parseable(x)
    requires forall y :: y in rest ==> y.name != x.name
    ensures WellFormed([x] + rest)
  {
    var r := [x] + rest;
    forall i, j | 0 <= i < j < |r| ensures r[i].name != r[j].name {
      assert r[j] == rest[j - 1];
      if i > 0 {
        assert r[i] == rest[i - 1];
      } else {
        assert rest[j - 1] in rest;
      }
    }
  }


  /** One assignment to `document.cookie`: the pair and the attributes the helpers write. */
  datatype CookieWrite = CookieWrite(
    name: string,
    value: string,
    expiresMs: int,
    path: string,
    sameSiteStrict: bool,
    secure: bool)

  /** Milliseconds in a day, as `days * 24 * 60 * 60 * 1000` computes it. */
  const DAY_MS: int := 24 * 60 * 60 * 1000

  /** `setCookie`'s default lifetime in days. */
  const DEFAULT_DAYS: int := 7

  /**
   * An instant as `toUTCString()` writes it, and so as the browser reads the
   * `expires` attribute back: cut down to its whole second.
   */
  function UtcSecond(ms: int): (r: int)
    ensures r <= ms < r + 1000 && r % 1000 == 0
  {
    ms / 1000 * 1000
  }

  /** When a cookie that `setCookie` writes at `nowMs` for `days` days expires. */
  function ExpiryAfter(nowMs: int, days: int): int {
    UtcSecond(nowMs + days * DAY_MS)
  }

  /** Whole days keep the sub-second part of the clock, so the cookie dies that many milliseconds early. */
  lemma ExpiryDropsMilliseconds(nowMs: int, days: int)
    ensures ExpiryAfter(nowMs, days) == nowMs - nowMs % 1000 + days * DAY_MS
    ensures ExpiryAfter(nowMs, days) < nowMs + days * DAY_MS <==> nowMs % 1000 != 0
  {
    var t := nowMs + days * DAY_MS;
    assert days * DAY_MS == (days * 86400) * 1000;
    assert t == (nowMs - nowMs % 1000 + days * DAY_MS) + nowMs % 1000;
    assert (nowMs - nowMs % 1000 + days * DAY_MS) % 1000 == 0;
  }

  /**
   * `setCookie(name, value, days)`: expires `days` from now, cut down to the
   * whole second, with whole-site path, `SameSite=Strict`, and `Secure` only
   * when the page was served over https.
   */
  function SetCookie(name: string, value: string, days: int, nowMs: int, https: bool): (w: CookieWrite)
    ensures w.name == name && w.value == value && w.path == "/" && w.sameSiteStrict
    ensures w.expiresMs <= nowMs + days * DAY_MS < w.expiresMs + 1000 && w.expiresMs % 1000 == 0
    ensures w.secure <==> https
  {
    CookieWrite(name, value, ExpiryAfter(nowMs, days), "/", true, https)
  }

  /** `deleteCookie(name)`: an empty value expiring at the epoch, whole-site path, no other attribute. */
  function DeleteCookie(name: string): (w: CookieWrite)
    ensures w.name == name && w.value == "" && w.expiresMs == 0 && w.path == "/"
  {
    CookieWrite(name, "", 0, "/", false, false)
  }

  /**
   * What the browser does with a write at `nowMs`: the value is cut at the
   * first `;` (the rest of the string is attributes), and an expiry not in
   * the future removes the cookie instead of storing it.
   */
  function Store(jar: Jar, w: CookieWrite, nowMs: int): (r: Jar)
    requires ValidName(w.name)
    ensures WellFormed(jar) ==> WellFormed(r)
    ensures FindCookie(r, w.name)
            == if w.expiresMs <= nowMs then None
               else Some(Cookie(w.name, FirstPiece(w.value, ';'), w.expiresMs))
    ensures forall m :: m != w.name ==> FindCookie(r, m) == FindCookie(jar, m)
  {
    if w.expiresMs <= nowMs then Remove(jar, w.name)
    else
      var c := Cookie(w.name, FirstPiece(w.value, ';'), w.expiresMs);
      if WellFormed(jar) then UpsertWellFormed(jar, c); Upsert(jar, c) else Upsert(jar, c)
  }

  // ---------------------------------------------------------------------------
  // Reading: the `document.cookie` string and the `getCookie` lookup on it.

  /** One entry of `document.cookie`: `name=value`, or the bare value of a nameless cookie. */
  function Pair(c: Cookie): string {
    if c.name == "" then c.value else c.name + "=" + c.value
  }

  /** Every entry preceded by `"; "`: the string `getCookie` builds as `; ${document.cookie}`. */
  function Padded(cs: Jar): string {
    if cs == [] then "" else "; " + Pair(cs[0]) + Padded(cs[1..])
  }

  /** The `document.cookie` string of a list of cookies: entries joined by `"; "`. */
  function Render(cs: Jar): string {
    if cs == [] then "" else Pair(cs[0]) + Padded(cs[1..])
  }

  /** `document.cookie` at `nowMs`. */
  function CookieString(jar: Jar, nowMs: int): string {
    Render(Live(jar, nowMs))
  }

  /** The separator `getCookie` splits on: `"; " + name + "="`. */
  function Key(name: string): string {
    "; " + name + "="
  }

  /** JavaScript's `s || null` on a string: the empty string is falsy. */
  function NonEmpty(s: string): Option<string> {
    if s == "" then None else Some(s)
  }

  /**
   * The lookup both `getCookie` helpers perform on a cookie string: split
   * `"; " + cookies` on `"; name="`; with exactly two pieces, the value is the
   * second piece up to its first `;`, and an empty value counts as absent.
   */
  function Lookup(cookies: string, name: string): (r: Option<string>)
    ensures forall i: nat :: SoleOccurrence("; " + cookies, Key(name), i) ==>
              r == NonEmpty(FirstPiece(("; " + cookies)[i + |Key(name)|..], ';'))
    ensures (forall i: nat :: !SoleOccurrence("; " + cookies, Key(name), i)) ==> r == None
    ensures r.Some? ==> r.value != "" && ';' !in r.value
  {
    var parts := Split("; " + cookies, Key(name));
    SplitInTwo("; " + cookies, Key(name));
    if |parts| == 2 then NonEmpty(FirstPiece(parts[1], ';')) else None
  }

  // ---------------------------------------------------------------------------
  // Lookup on a rendered jar.

  /** What follows `"; name="` in the padded cookie string, for the cookie called `name`. */
  function AfterKey(cs: Jar, name: string): Option<string> {
    if cs == [] then None
    else if cs[0].name == name then Some(cs[0].value + Padded(cs[1..]))
    else AfterKey(cs[1..], name)
  }

  /**
   * Inside one entry, `"; name="` can only start at the entry's own start,
   * only for its own name, and never for a nameless entry, given that what
   * follows the entry is empty or starts a new one.
   */
  lemma EntryOccurrences(c: Cookie, rest: string, name: string, j: nat)
    requires Parseable(c) && NameChars(name)
    requires rest == [] || rest[0] == ';'
    requires j < |"; " + Pair(c)|
    ensures OccursAt("; " + Pair(c) + rest, Key(name), j) <==> j == 0 && c.name == name && name != ""
  {
    var e := "; " + Pair(c);
    var s := e + rest;
    var k := Key(name);
    var a := c.name;
    assert k == "; " + name + "=";
    if j == 0 && a == name && name != "" {
      assert e == "; " + a + "=" + c.value;
      assert s[0..|k|] == k;
    } else if j > 0 {
      // only the first character of an entry is a `;`, and the key starts with one
      assert s[j] == e[j];
      if j == 1 {
        assert e[j] == ' ';
      } else if a == "" {
        assert e == "; " + c.value;
        assert e[j] == c.value[j - 2];
      } else {
        assert e == "; " + a + "=" + c.value;
        if j < 2 + |a| {
          assert e[j] == a[j - 2];
        } else if j == 2 + |a| {
          assert e[j] == '=';
        } else {
          assert e[j] == c.value[j - 3 - |a|];
        }
      }
      assert s[j] != k[0];
      if OccursAt(s, k, j) {
        OccursAtChar(s, k, j, 0);
        assert false;
      }
    } else if a != "" {
      // at the start the names differ, so some position of the key disagrees
      assert e == "; " + a + "=" + c.value;
      var p: nat;
      if |name| < |a| {
        p := 2 + |name|;
        assert k[p] == '=';
        assert s[p] == a[|name|];
      } else if |name| > |a| {
        p := 2 + |a|;
        assert k[p] == name[|a|];
        assert s[p] == '=';
      } else {
        var t :| 0 <= t < |a| && a[t] != name[t];
        p := 2 + t;
        assert k[p] == name[t];
        assert s[p] == a[t];
      }
      assert p < |k| && p < |s| && s[p] != k[p];
      if OccursAt(s, k, 0) {
        OccursAtChar(s, k, j, p);
        assert false;
      }
    } else {
      // a nameless entry holds no `=`, and the next entry starts with `;`
      NamelessEntryNoKey(c.value, rest, name);
    }
  }

  /** A bare value without `=` or `;`, followed by nothing or a new entry, does not start with a key. */
  lemma NamelessEntryNoKey(v: string, rest: string, name: string)
    requires '=' !in v && ';' !in v && NameChars(name)
    requires rest == [] || rest[0] == ';'
    ensures !OccursAt("; " + v + rest, Key(name), 0)
  {
    var s := "; " + v + rest;
    var k := Key(name);
    assert k == "; " + name + "=";
    // the key's `=` lands inside the value, or its tail on the next entry's `;`
    var p: nat := if |name| < |v| then 2 + |name| else 2 + |v|;
    assert p < |k|;
    if |k| <= |s| {
      assert s[0..|k|][p] == s[p] != k[p];
    }
  }

  /** A jar with no cookie called `name`, or asked for the empty name, has no `"; name="` in its padded string. */
  lemma {:induction false} NoKeyInPadded(cs: Jar, name: string)
    requires WellFormed(cs) && NameChars(name)
    requires FindCookie(cs, name).None? || name == ""
    ensures forall j: nat :: !OccursAt(Padded(cs), Key(name), j)
    decreases |cs|
  {
    if cs != [] {
      var e := "; " + Pair(cs[0]);
      var rest := Padded(cs[1..]);
      assert WellFormed(cs[1..]);
      NoKeyInPadded(cs[1..], name);
      PaddedStart(cs[1..]);
      assert Padded(cs) == e + rest;
      OccursShift(e + rest, Key(name), |e|);
      assert (e + rest)[|e|..] == rest;
      forall j: nat ensures !OccursAt(e + rest, Key(name), j) {
        if j < |e| {
          EntryOccurrences(cs[0], rest, name, j);
        } else {
          assert !OccursAt(rest, Key(name), j - |e|);
        }
      }
    }
  }

  /** A padded string is empty or starts a new entry. */
  lemma PaddedStart(cs: Jar)
    ensures Padded(cs) == [] || Padded(cs)[0] == ';'
  {
  }

  /** When the first entry carries the key and no later one does, the split gives the empty text and everything after the key. */
  lemma KeyAtFront(c: Cookie, cs: Jar, name: string)
    requires WellFormed(cs) && ValidName(name) && ';' !in c.value && c.name == name
    requires FindCookie(cs, name).None?
    ensures Split("; " + Pair(c) + Padded(cs), Key(name)) == ["", c.value + Padded(cs)]
  {
    var k := Key(name);
    var rest := Padded(cs);
    var s := "; " + Pair(c) + rest;
    var t := c.value + rest;
    assert Pair(c) == name + "=" + c.value;
    assert s[0..|k|] == k;
    assert s[|k|..] == t;
    NoKeyInPadded(cs, name);
    NoKeyAfterValue(c.value, rest, k);
    NothingBeyond(s, k, |k|);
    SoleOccurrenceSplits(s, k, 0);
  }

  /** A value without `;` cannot hold the start of a key, so a key-free rest stays key-free behind it. */
  lemma NoKeyAfterValue(v: string, rest: string, k: string)
    requires |k| > 0 && k[0] == ';' && ';' !in v
    requires forall j: nat :: !OccursAt(rest, k, j)
    ensures forall j: nat :: !OccursAt(v + rest, k, j)
  {
    var t := v + rest;
    assert t[|v|..] == rest;
    OccursShift(t, k, |v|);
    forall j: nat ensures !OccursAt(t, k, j) {
      if j < |v| {
        assert t[j] == v[j] != k[0];
        assert j + |k| <= |t| ==> t[j..j + |k|][0] == t[j];
      } else {
        assert !OccursAt(rest, k, j - |v|);
      }
    }
  }

  /** `AfterKey` finds text exactly when the jar holds a cookie of that name. */
  lemma AfterKeyFound(cs: Jar, name: string)
    ensures AfterKey(cs, name).Some? <==> FindCookie(cs, name).Some?
  {
  }

  /**
   * Splitting the padded string on `"; name="`: past the first piece there is
   * exactly the text after the key when the jar holds `name`, and nothing otherwise.
   */
  lemma {:induction false} PaddedPieces(cs: Jar, name: string)
    requires WellFormed(cs) && ValidName(name)
    ensures Split(Padded(cs), Key(name))[1..]
            == match AfterKey(cs, name) case None => [] case Some(t) => [t]
    decreases |cs|
  {
    var k := Key(name);
    if cs == [] {
      assert !OccursAt("", k, 0);
      SplitNoOccurrence("", k);
    } else {
      var c := cs[0];
      var e := "; " + Pair(c);
      var rest := Padded(cs[1..]);
      assert WellFormed(cs[1..]);
      assert Padded(cs) == e + rest;
      if c.name == name {
        assert FindCookie(cs[1..], name).None?;
        KeyAtFront(c, cs[1..], name);
      } else {
        PaddedStart(cs[1..]);
        forall j: nat | j < |e| ensures !OccursAt(e + rest, k, j) {
          EntryOccurrences(c, rest, name, j);
        }
        SplitSkipPrefix(e, rest, k);
        PaddedPieces(cs[1..], name);
      }
    }
  }

  /** The text after a cookie's key, read up to the next `;`, is exactly the cookie's value. */
  lemma ValueBeforeNextEntry(v: string, cs: Jar)
    requires ';' !in v
    ensures FirstPiece(v + Padded(cs), ';') == v
  {
    var t := v + Padded(cs);
    var r := FirstPiece(t, ';');
    assert forall i :: 0 <= i < |v| ==> t[i] == v[i];
    if cs != [] {
      assert t[|v|] == ';';
    }
    assert |r| >= |v|;
    assert |r| <= |v|;
    assert t[..|v|] == v;
  }

  /** `getCookie` on a well-formed jar's cookie string returns the stored value, unless it is empty. */
  lemma LookupRendered(cs: Jar, name: string)
    requires WellFormed(cs) && ValidName(name)
    ensures Lookup(Render(cs), name)
            == match FindCookie(cs, name) case None => None case Some(c) => NonEmpty(c.value)
  {
    var k := Key(name);
    if cs == [] {
      assert !OccursAt("; ", k, 0) && !OccursAt("; ", k, 1);
      SplitNoOccurrence("; ", k);
    } else {
      assert "; " + Render(cs) == Padded(cs);
      PaddedPieces(cs, name);
      AfterKeyFound(cs, name);
      var parts := Split(Padded(cs), k);
      assert |parts| == 1 + |parts[1..]|;
      match AfterKey(cs, name)
      case None =>
      case Some(t) =>
        AfterKeyValue(cs, name);
    }
  }

  /** The text after the key starts with the value of the cookie found under that name. */
  lemma {:induction false} AfterKeyValue(cs: Jar, name: string)
    requires WellFormed(cs)
    requires AfterKey(cs, name).Some?
    ensures FindCookie(cs, name).Some?
    ensures FirstPiece(AfterKey(cs, name).value, ';') == FindCookie(cs, name).value.value
    decreases |cs|
  {
    if cs[0].name == name {
      ValueBeforeNextEntry(cs[0].value, cs[1..]);
    } else {
      assert WellFormed(cs[1..]);
      AfterKeyValue(cs[1..], name);
    }
  }

  // ---------------------------------------------------------------------------
  // The stored value a read should see, and the two `getCookie` helpers.

  /** The value a lookup of `name` should produce at `nowMs`: the live cookie's value, an empty one counting as absent. */
  function StoredValue(jar: Jar, nowMs: int, name: string): Option<string> {
    match FindCookie(jar, name)
    case Some(c) => if c.expiresMs > nowMs then NonEmpty(c.value) else None
    case None => None
  }

  /** On a well-formed jar, the string lookup finds exactly the stored value. */
  lemma LookupFindsStored(jar: Jar, nowMs: int, name: string)
    requires WellFormed(jar) && ValidName(name)
    ensures Lookup(CookieString(jar, nowMs), name) == StoredValue(jar, nowMs, name)
  {
    LookupRendered(Live(jar, nowMs), name);
  }

  /** `getCookie("")` finds nothing, not even a nameless cookie, which is listed without `=`. */
  lemma LookupNameless(jar: Jar, nowMs: int)
    requires WellFormed(jar)
    ensures Lookup(CookieString(jar, nowMs), "") == None
  {
    var cs := Live(jar, nowMs);
    var k := Key("");
    if cs == [] {
      assert !OccursAt("; ", k, 0) && !OccursAt("; ", k, 1);
    } else {
      assert "; " + Render(cs) == Padded(cs);
      NoKeyInPadded(cs, "");
    }
    assert forall i: nat :: !SoleOccurrence("; " + Render(cs), k, i);
  }

  /**
   * Why `Parseable` rules out a nameless cookie holding `=`: listed as its
   * bare value `user=x`, it reads as a cookie called `user` although none is
   * stored under that name.
   */
  lemma NamelessPairReadsAsNamed()
    ensures var jar := [Cookie("", "user=x", 1)];
            && FindCookie(jar, "user").None?
            && Lookup(CookieString(jar, 0), "user") == Some("x")
  {
    var jar := [Cookie("", "user=x", 1)];
    var s := "; " + CookieString(jar, 0);
    var k := Key("user");
    assert Live(jar, 0) == jar;
    assert s == "; user=x" && k == "; user=";
    assert s[0..|k|] == k;
    assert SoleOccurrence(s, k, 0);
    assert s[|k|..] == "x";
    assert FirstPiece("x", ';') == "x";
  }

  /** A value written by `setCookie` reads back, cut at its first `;`, until it expires and not after. */
  lemma SetThenStored(jar: Jar, name: string, value: string, days: int, nowMs: int, https: bool, laterMs: int)
    requires ValidName(name) && nowMs <= laterMs
    ensures StoredValue(Store(jar, SetCookie(name, value, days, nowMs, https), nowMs), laterMs, name)
            == if laterMs < ExpiryAfter(nowMs, days) then NonEmpty(FirstPiece(value, ';')) else None
  {
  }

  /** After `deleteCookie` (with the clock past the epoch) nothing is stored under the name at any later time. */
  lemma DeleteThenStored(jar: Jar, name: string, nowMs: int, laterMs: int)
    requires ValidName(name) && nowMs >= 0
    ensures StoredValue(Store(jar, DeleteCookie(name), nowMs), laterMs, name) == None
  {
  }

  /** A write to one name leaves what every other name reads unchanged. */
  lemma StoreOtherName(jar: Jar, w: CookieWrite, nowMs: int, laterMs: int, other: string)
    requires ValidName(w.name) && other != w.name
    ensures StoredValue(Store(jar, w, nowMs), laterMs, other) == StoredValue(jar, laterMs, other)
  {
  }

  /** `LookupFindsStored` and `LookupNameless` for whatever a document holds. */
  lemma PageLookup(doc: Document, nowMs: int, name: string)
    ensures doc.Page? && WellFormed(doc.jar) && ValidName(name) ==>
              Lookup(CookieString(doc.jar, nowMs), name) == StoredValue(doc.jar, nowMs, name)
    ensures doc.Page? && WellFormed(doc.jar) && name == "" ==> Lookup(CookieString(doc.jar, nowMs), name) == None
  {
    if doc.Page? && WellFormed(doc.jar) && ValidName(name) {
      LookupFindsStored(doc.jar, nowMs, name);
    }
    if doc.Page? && WellFormed(doc.jar) && name == "" {
      LookupNameless(doc.jar, nowMs);
    }
  }

  /** Why a JavaScript expression threw. */
  datatype JsError = ReferenceError | SecurityError

  /** The outcome of JavaScript code that may throw. */
  datatype Completion<T> = Normal(value: T) | Throw(error: JsError)

  /**
   * What the code can reach of `document`: nothing while rendering outside a
   * browser, a document whose cookie access throws (an opaque origin), or a
   * page with its cookie jar.
   */
  datatype Document = NoDocument | CookieAccessDenied | Page(jar: Jar)

  /** Reading `document.cookie`. */
  function ReadCookies(doc: Document, nowMs: int): Completion<string> {
    match doc
    case NoDocument => Throw(ReferenceError)
    case CookieAccessDenied => Throw(SecurityError)
    case Page(jar) => Normal(CookieString(jar, nowMs))
  }

  /** Assigning to `document.cookie`. */
  function WriteCookie(doc: Document, w: CookieWrite, nowMs: int): (r: Completion<Document>)
    requires ValidName(w.name)
    ensures doc.Page? ==> r.Normal? && r.value.Page?
    ensures doc.Page? && WellFormed(doc.jar) ==> WellFormed(r.value.jar)
  {
    match doc
    case NoDocument => Throw(ReferenceError)
    case CookieAccessDenied => Throw(SecurityError)
    case Page(jar) => Normal(Page(Store(jar, w, nowMs)))
  }

  /**
   * `getCookie` of the auth provider: `null` when there is no document at
   * all, otherwise the lookup on `document.cookie` (which may throw).
   */
  function GetCookie(doc: Document, nowMs: int, name: string): (r: Completion<Option<string>>)
    ensures doc.NoDocument? ==> r == Normal(None)
    ensures doc.CookieAccessDenied? ==> r == Throw(SecurityError)
    ensures doc.Page? && WellFormed(doc.jar) && ValidName(name) ==>
              r == Normal(StoredValue(doc.jar, nowMs, name))
    ensures doc.Page? && WellFormed(doc.jar) && name == "" ==> r == Normal(None)
  {
    if doc.NoDocument? then Normal(None)
    else
      match ReadCookies(doc, nowMs)
      case Throw(e) => Throw(e)
      case Normal(cookies) =>
        PageLookup(doc, nowMs, name);
        Normal(Lookup(cookies, name))
  }

  /** `getCookie` of the HTTP client: the same lookup without the no-document guard. */
  function GetCookieUnguarded(doc: Document, nowMs: int, name: string): (r: Completion<Option<string>>)
    ensures doc.NoDocument? ==> r == Throw(ReferenceError)
  {
    match ReadCookies(doc, nowMs)
    case Throw(e) => Throw(e)
    case Normal(cookies) => Normal(Lookup(cookies, name))
  }

  /** The two helpers agree whenever a document exists; without one the guarded helper gives `null` and the other throws. */
  lemma GetCookieCopiesAgree(doc: Document, nowMs: int, name: string)
    ensures !doc.NoDocument? ==> GetCookieUnguarded(doc, nowMs, name) == GetCookie(doc, nowMs, name)
    ensures doc.NoDocument? ==>
              GetCookie(doc, nowMs, name) == Normal(None)
              && GetCookieUnguarded(doc, nowMs, name) == Throw(ReferenceError)
  {
  }
}

=== FILE: gateway.dfy ===
/**
 * The HTTP client's request interceptor: before every request it reads the
 * `access_token` cookie and, when there is one, adds the bearer header.
 */
module Gateway {
  import opened Wrappers
  import opened Cookies
  import Session
  import JsSplit

  /** The parts of an outgoing request the interceptor can see. */
  datatype RequestConfig = RequestConfig(verb: string, url: string, headers: map<string, string>)

  /** The header the interceptor writes. */
  const AUTHORIZATION: string := "Authorization"

  /**
   * The interceptor: the token cookie, looked up without the no-document
   * guard, becomes `Authorization: Bearer <token>`; with no token the
   * configuration passes through. A lookup that throws rejects the request.
   */
  function Intercept(config: RequestConfig, doc: Document, nowMs: int): (r: Completion<RequestConfig>)
    ensures r.Throw? <==> !doc.Page?
    ensures r.Normal? ==> r.value.verb == config.verb && r.value.url == config.url
    ensures r.Normal? ==> forall k :: k != AUTHORIZATION ==>
              (k in r.value.headers <==> k in config.headers)
              && (k in config.headers ==> r.value.headers[k] == config.headers[k])
  {
    match GetCookieUnguarded(doc, nowMs, Session.TOKEN_COOKIE)
    case Throw(e) => Throw(e)
    case Normal(None) => Normal(config)
    case Normal(Some(token)) => Normal(config.(headers := config.headers[AUTHORIZATION := "Bearer " + token]))
  }

  /** On a page, the bearer header is set exactly when a token is stored, and carries that token. */
  lemma BearerIffToken(config: RequestConfig, jar: Jar, nowMs: int)
    requires WellFormed(jar)
    ensures Intercept(config, Page(jar), nowMs)
            == match StoredValue(jar, nowMs, Session.TOKEN_COOKIE)
               case Some(token) => Normal(config.(headers := config.headers[AUTHORIZATION := "Bearer " + token]))
               case None => Normal(config)
  {
    Session.SessionNamesValid();
    GetCookieCopiesAgree(Page(jar), nowMs, Session.TOKEN_COOKIE);
    assert GetCookieUnguarded(Page(jar), nowMs, Session.TOKEN_COOKIE)
           == Normal(StoredValue(jar, nowMs, Session.TOKEN_COOKIE));
  }

  /** Requests made after a login, while the cookie lives, carry the token the login stored. */
  lemma LoginThenRequest(w: Session.World, env: Session.Env, user: Session.User, token: string,
                         config: RequestConfig, laterMs: int)
    requires w.doc.Page? && WellFormed(w.doc.jar)
    requires token != "" && ';' !in token
    requires env.nowMs <= laterMs < ExpiryAfter(env.nowMs, DEFAULT_DAYS)
    ensures Session.Login(w, env, user, token).Normal?
    ensures var r := Intercept(config, Session.Login(w, env, user, token).value.doc, laterMs);
            r.Normal? && AUTHORIZATION in r.value.headers && r.value.headers[AUTHORIZATION] == "Bearer " + token
  {
    var data := env.serializeUser(user);
    var jar1 := Store(w.doc.jar, SetCookie(Session.TOKEN_COOKIE, token, DEFAULT_DAYS, env.nowMs, env.https), env.nowMs);
    var jar2 := Session.Login(w, env, user, token).value.doc.jar;
    SetThenStored(w.doc.jar, Session.TOKEN_COOKIE, token, DEFAULT_DAYS, env.nowMs, env.https, laterMs);
    StoreOtherName(jar1, SetCookie(Session.USER_COOKIE, data, DEFAULT_DAYS, env.nowMs, env.https), env.nowMs, laterMs, Session.TOKEN_COOKIE);
    JsSplit.FirstPieceWithout(token, ';');
    BearerIffToken(config, jar2, laterMs);
  }

  /** After a logout, requests leave the configuration exactly as they received it. */
  lemma LogoutThenRequest(w: Session.World, nowMs: int, config: RequestConfig, laterMs: int)
    requires w.doc.Page? && WellFormed(w.doc.jar) && nowMs >= 0
    ensures Session.Logout(w, nowMs).Normal?
    ensures Intercept(config, Session.Logout(w, nowMs).value.doc, laterMs) == Normal(config)
  {
    Session.LogoutClears(w, nowMs, laterMs);
    BearerIffToken(config, Session.Logout(w, nowMs).value.doc.jar, laterMs);
  }
}

=== FILE: js_number.dfy ===
/**
 * The two JavaScript string primitives the admin panel leans on besides
 * `split`: `String.prototype.trim` (the plan-promotion reason check) and the
 * global `parseInt` with no radix (the pagination fallback and the month
 * label). Numbers are unbounded integers; JavaScript's double rounding above
 * 2^53 is not modelled.
 */
module JsTrim {

  /** ECMAScript WhiteSpace and LineTerminator code points: what `trim` and `parseInt` skip. */
  predicate IsSpace(c: char) {
    || c == '\t' || c == '\n' || c == '\U{000B}' || c == '\U{000C}' || c == '\r' || c == ' '
    || c == '\U{00A0}' || c == '\U{1680}' || ('\U{2000}' <= c <= '\U{200A}')
    || c == '\U{2028}' || c == '\U{2029}' || c == '\U{202F}' || c == '\U{205F}'
    || c == '\U{3000}' || c == '\U{FEFF}'
  }

  /** The end of the run of white space that starts at index `k`. */
  function SpacesFrom(s: string, k: nat): (n: nat)
    requires k <= |s|
    ensures k <= n <= |s|
    ensures forall i :: k <= i < n ==> IsSpace(s[i])
    ensures n == |s| || !IsSpace(s[n])
    decreases |s| - k
  {
    if k < |s| && IsSpace(s[k]) then SpacesFrom(s, k + 1) else k
  }

  /** The start of the run of white space that ends just before index `k`. */
  function SpacesBefore(s: string, k: nat): (n: nat)
    requires k <= |s|
    ensures n <= k
    ensures forall i :: n <= i < k ==> IsSpace(s[i])
    ensures n == 0 || !IsSpace(s[n - 1])
  {
    if k > 0 && IsSpace(s[k - 1]) then SpacesBefore(s, k - 1) else k
  }

  /** `s.trimStart()`: `s` without its leading white space. */
  function TrimStart(s: string): string {
    s[SpacesFrom(s, 0)..]
  }

  /** `s.trimEnd()`: `s` without its trailing white space. */
  function TrimEnd(s: string): string {
    s[..SpacesBefore(s, |s|)]
  }

  /** `s.trim()`. */
  function Trim(s: string): string {
    TrimEnd(TrimStart(s))
  }

  /** A string trims to nothing exactly when every character of it is white space. */
  lemma TrimEmptyIffAllSpace(s: string)
    ensures Trim(s) == [] <==> forall i :: 0 <= i < |s| ==> IsSpace(s[i])
  {
    var a := SpacesFrom(s, 0);
    var t := TrimStart(s);
    if a < |s| {
      assert t[0] == s[a] && !IsSpace(t[0]);
      assert SpacesBefore(t, |t|) > 0;
    }
  }

  /** Blank in the sense of `!s.trim()`: empty or white space only. */
  predicate IsBlank(s: string) {
    Trim(s) == []
  }

  /** JavaScript's `text || fallback` on strings: the empty string is the only falsy one. */
  function OrElse(text: string, fallback: string): (r: string)
    ensures text != "" ==> r == text
    ensures text == "" ==> r == fallback
  {
    if text != "" then text else fallback
  }

  /** The result is empty exactly when both operands are. */
  lemma OrElseEmptyIff(text: string, fallback: string)
    ensures OrElse(text, fallback) == "" <==> text == "" && fallback == ""
  {
  }
}

module JsNumber {
  import opened Wrappers
  import JsTrim

  /** The value of `c` as a digit in radices up to 36 (`0-9`, then `a-z` or `A-Z`). */
  function DigitValue(c: char): (d: Option<nat>)
    ensures d.Some? ==> d.value < 36
    ensures ('0' <= c <= '9') <==> d.Some? && d.value < 10
  {
    if '0' <= c <= '9' then Some(c as nat - '0' as nat)
    else if 'a' <= c <= 'z' then Some(c as nat - 'a' as nat + 10)
    else if 'A' <= c <= 'Z' then Some(c as nat - 'A' as nat + 10)
    else None
  }

  predicate IsDigit(c: char, radix: nat) {
    DigitValue(c).Some? && DigitValue(c).value < radix
  }

  predicate AllDigits(s: string, radix: nat) {
    forall i :: 0 <= i < |s| ==> IsDigit(s[i], radix)
  }

  /** The end of the run of `radix` digits that starts at index `k`. */
  function DigitsFrom(s: string, k: nat, radix: nat): (e: nat)
    requires k <= |s|
    ensures k <= e <= |s|
    ensures forall i :: k <= i < e ==> IsDigit(s[i], radix)
    ensures e == |s| || !IsDigit(s[e], radix)
    decreases |s| - k
  {
    if k < |s| && IsDigit(s[k], radix) then DigitsFrom(s, k + 1, radix) else k
  }

  /** The number a digit string denotes in `radix`, most significant digit first. */
  function ValueOf(ds: string, radix: nat): nat
    requires AllDigits(ds, radix)
  {
    if ds == [] then 0
    else ValueOf(ds[..|ds| - 1], radix) * radix + DigitValue(ds[|ds| - 1]).value
  }

  /** The value of the longest run of `radix` digits from index `k`; `NaN` (None) when there is none. */
  function LeadingNumber(s: string, k: nat, radix: nat): (n: Option<nat>)
    requires k <= |s|
    ensures n.None? <==> k == |s| || !IsDigit(s[k], radix)
  {
    var e := DigitsFrom(s, k, radix);
    if e == k then None else Some(ValueOf(s[k..e], radix))
  }

  /** Where the magnitude starts: past the white space and an optional sign. */
  function MagnitudeStart(s: string): (m: nat)
    ensures m <= |s|
  {
    var k := JsTrim.SpacesFrom(s, 0);
    if k < |s| && (s[k] == '-' || s[k] == '+') then k + 1 else k
  }

  /**
   * The magnitude `parseInt` reads from index `m`: a `0x`/`0X` prefix switches
   * to hexadecimal; the longest run of digits that follows is the value, and
   * no digits at all is `NaN` (None).
   */
  function Magnitude(s: string, m: nat): Option<nat>
    requires m <= |s|
  {
    if m + 2 <= |s| && s[m] == '0' && (s[m + 1] == 'x' || s[m + 1] == 'X') then LeadingNumber(s, m + 2, 16)
    else LeadingNumber(s, m, 10)
  }

  /**
   * `parseInt(s)` with no radix: skip leading white space, take an optional
   * sign, then read the magnitude. `-0` is the integer 0.
   */
  function ParseInt(s: string): Option<int> {
    var k := JsTrim.SpacesFrom(s, 0);
    match Magnitude(s, MagnitudeStart(s))
    case None => None
    case Some(v) =>
      var n: int := v;
      Some(if k < |s| && s[k] == '-' then -n else n)
  }

  /** The character for a decimal digit. */
  function DigitChar(d: nat): (c: char)
    requires d < 10
    ensures DigitValue(c) == Some(d)
  {
    ('0' as nat + d) as char
  }

  /** `String(n)` for a natural number: its decimal digits, no leading zero. */
  function ShowNat(n: nat): (s: string)
    ensures |s| >= 1 && AllDigits(s, 10)
    ensures s[0] == '0' ==> n == 0
  {
    if n < 10 then [DigitChar(n)]
    else
      var s := ShowNat(n / 10) + [DigitChar(n % 10)];
      assert s[0] == ShowNat(n / 10)[0];
      s
  }

  /** Reading back the decimal digits of `n` gives `n`. */
  lemma {:induction false} ValueOfShowNat(n: nat)
    ensures ValueOf(ShowNat(n), 10) == n
  {
    if n >= 10 {
      var s := ShowNat(n);
      ValueOfShowNat(n / 10);
      assert s[..|s| - 1] == ShowNat(n / 10);
    }
  }

  /** A string that starts with a decimal digit has neither white space nor a sign in front. */
  lemma StartsWithDigit(ds: string)
    requires ds != [] && IsDigit(ds[0], 10)
    ensures JsTrim.SpacesFrom(ds, 0) == 0 && MagnitudeStart(ds) == 0
  {
    assert !JsTrim.IsSpace(ds[0]);
  }

  /** A string of decimal digits is read whole, in decimal. */
  lemma MagnitudeDecimal(ds: string)
    requires ds != [] && AllDigits(ds, 10)
    ensures Magnitude(ds, 0) == Some(ValueOf(ds, 10))
  {
    assert IsDigit(ds[0], 10);
    if |ds| >= 2 {
      assert IsDigit(ds[1], 10);
    }
    assert DigitsFrom(ds, 0, 10) == |ds|;
    assert ds[0..|ds|] == ds;
  }

  /** A plain string of decimal digits parses to the number it spells. */
  lemma ParseIntDecimal(ds: string)
    requires ds != [] && AllDigits(ds, 10)
    ensures ParseInt(ds) == Some(ValueOf(ds, 10))
  {
    assert IsDigit(ds[0], 10);
    StartsWithDigit(ds);
    MagnitudeDecimal(ds);
  }

  /** `parseInt(String(n)) === n`: parsing inverts decimal rendering. */
  lemma ParseIntShowNat(n: nat)
    ensures ParseInt(ShowNat(n)) == Some(n)
  {
    ParseIntDecimal(ShowNat(n));
    ValueOfShowNat(n);
  }

  /** A string with no digit where parsing looks for one is `NaN`. */
  lemma ParseIntNoDigits(s: string)
    requires forall i :: 0 <= i < |s| ==> !('0' <= s[i] <= '9')
    ensures ParseInt(s) == None
  {
    var m := MagnitudeStart(s);
    if m < |s| {
      assert !IsDigit(s[m], 10) && s[m] != '0';
    }
    NoMagnitudeIsNaN(s);
  }

  /** `parseInt` is `NaN` exactly when no magnitude follows the white space and the sign. */
  lemma NoMagnitudeIsNaN(s: string)
    ensures ParseInt(s) == None <==> Magnitude(s, MagnitudeStart(s)).None?
  {
  }

  /** A string whose first character is neither white space, nor a sign, nor a decimal digit is `NaN`. */
  lemma ParseIntLeadingOther(s: string)
    requires s != [] && !JsTrim.IsSpace(s[0]) && s[0] != '-' && s[0] != '+' && !IsDigit(s[0], 10)
    ensures ParseInt(s) == None
  {
    assert JsTrim.SpacesFrom(s, 0) == 0;
    assert MagnitudeStart(s) == 0 && s[0] != '0';
    NoMagnitudeIsNaN(s);
  }

  /**
   * JavaScript's `n || d` on the result of `parseInt`: `NaN` and `0` are falsy,
   * so they give way to the fallback `d`.
   */
  function OrDefault(n: Option<int>, d: int): (r: int)
    ensures n.Some? && n.value != 0 ==> r == n.value
    ensures n.None? || n.value == 0 ==> r == d
  {
    if n.None? || n.value == 0 then d else n.value
  }
}

=== FILE: js_split.dfy ===
/**
 * JavaScript's `String.prototype.split` with a non-empty string separator, and
 * `Array.prototype.join`, over `seq<char>`. The cookie lookup, the token reader
 * and the month formatter are all built on this one definition.
 */
module JsSplit {
  import opened Wrappers

  /** `sep` occurs in `s` starting at index `i`. */
  predicate OccursAt(s: string, sep: string, i: nat) {
    i + |sep| <= |s| && s[i..i + |sep|] == sep
  }

  /** An occurrence fixes every character it covers. */
  lemma OccursAtChar(s: string, sep: string, i: nat, p: nat)
    requires OccursAt(s, sep, i) && p < |sep|
    ensures s[i + p] == sep[p]
  {
    assert s[i..i + |sep|][p] == s[i + p];
  }

  /** Occurrences of `sep` in `s[k..]` are exactly the occurrences in `s` shifted by `k`. */
  lemma OccursShift(s: string, sep: string, k: nat)
    requires k <= |s|
    ensures forall j: nat :: OccursAt(s[k..], sep, j) <==> OccursAt(s, sep, k + j)
  {
    forall j: nat
      ensures OccursAt(s[k..], sep, j) <==> OccursAt(s, sep, k + j)
    {
      if k + j + |sep| <= |s| {
        assert s[k..][j..j + |sep|] == s[k + j..k + j + |sep|];
      }
    }
  }

  /** An occurrence inside a prefix `p` of `p + q` is an occurrence in `p`, and conversely. */
  lemma OccursInPrefix(p: string, q: string, sep: string, j: nat)
    requires j + |sep| <= |p|
    ensures OccursAt(p + q, sep, j) <==> OccursAt(p, sep, j)
  {
    assert (p + q)[j..j + |sep|] == p[j..j + |sep|];
  }

  /** The leftmost occurrence of `sep` in `s` at index `k` or later, if any. */
  function IndexFrom(s: string, sep: string, k: nat): (r: Option<nat>)
    requires |sep| > 0
    ensures r.Some? ==> k <= r.value && OccursAt(s, sep, r.value)
    ensures r.Some? ==> forall j: nat :: k <= j < r.value ==> !OccursAt(s, sep, j)
    ensures r.None? ==> forall j: nat :: k <= j ==> !OccursAt(s, sep, j)
    decreases |s| - k
  {
    if |s| < k + |sep| then None
    else if OccursAt(s, sep, k) then Some(k)
    else IndexFrom(s, sep, k + 1)
  }

  /** The leftmost occurrence of `sep` in `s` (the index `indexOf` returns), if any. */
  function IndexOf(s: string, sep: string): (r: Option<nat>)
    requires |sep| > 0
    ensures r.Some? ==> OccursAt(s, sep, r.value)
    ensures r.Some? ==> forall j: nat :: j < r.value ==> !OccursAt(s, sep, j)
    ensures r.None? ==> forall j: nat :: !OccursAt(s, sep, j)
  {
    IndexFrom(s, sep, 0)
  }

  /** The characterisation of `IndexOf` pins it down: a leftmost occurrence is the one it returns. */
  lemma IndexOfLeftmost(s: string, sep: string, i: nat)
    requires |sep| > 0
    requires OccursAt(s, sep, i)
    requires forall j: nat :: j < i ==> !OccursAt(s, sep, j)
    ensures IndexOf(s, sep) == Some(i)
  {
    var r := IndexOf(s, sep);
    assert r.Some?;
    if r.value < i {
    } else if r.value > i {
    }
  }

  /** `s.split(sep)`: the pieces between the leftmost non-overlapping occurrences of `sep`. */
  function Split(s: string, sep: string): (parts: seq<string>)
    requires |sep| > 0
    ensures |parts| >= 1
    decreases |s|
  {
    match IndexOf(s, sep)
    case None => [s]
    case Some(i) => [s[..i]] + Split(s[i + |sep|..], sep)
  }

  /** One step of `Split`: the piece before the leftmost occurrence, then the split of the rest. */
  lemma SplitAtFirst(s: string, sep: string)
    requires |sep| > 0
    requires IndexOf(s, sep).Some?
    ensures Split(s, sep) == [s[..IndexOf(s, sep).value]] + Split(s[IndexOf(s, sep).value + |sep|..], sep)
  {
  }

  /** `parts.join(sep)`. */
  function Join(parts: seq<string>, sep: string): string
    requires |parts| >= 1
  {
    if |parts| == 1 then parts[0] else parts[0] + sep + Join(parts[1..], sep)
  }

  /** Joining a leading piece onto at least one more. */
  lemma JoinCons(head: string, tail: seq<string>, sep: string)
    requires |tail| >= 1
    ensures Join([head] + tail, sep) == head + sep + Join(tail, sep)
  {
    assert ([head] + tail)[1..] == tail;
  }

  /** Splitting loses nothing: joining the pieces back with the separator rebuilds the input. */
  lemma {:induction false} JoinSplit(s: string, sep: string)
    requires |sep| > 0
    ensures Join(Split(s, sep), sep) == s
    decreases |s|
  {
    var r := IndexOf(s, sep);
    if r.Some? {
      var i := r.value;
      var rest := s[i + |sep|..];
      SplitAtFirst(s, sep);
      JoinSplit(rest, sep);
      JoinCons(s[..i], Split(rest, sep), sep);
      assert s[i..i + |sep|] == sep;
      assert s == s[..i] + s[i..i + |sep|] + rest;
    }
  }

  /** No piece of a split contains the separator. */
  lemma {:induction false} SplitPiecesAvoidSeparator(s: string, sep: string)
    requires |sep| > 0
    ensures forall k: nat, j: nat :: k < |Split(s, sep)| ==> !OccursAt(Split(s, sep)[k], sep, j)
    decreases |s|
  {
    match IndexOf(s, sep)
    case None =>
    case Some(i) =>
      var rest := s[i + |sep|..];
      SplitPiecesAvoidSeparator(rest, sep);
      var parts := Split(s, sep);
      assert parts == [s[..i]] + Split(rest, sep);
      forall k: nat, j: nat | k < |parts|
        ensures !OccursAt(parts[k], sep, j)
      {
        if k == 0 {
          if j + |sep| <= i {
            OccursInPrefix(s[..i], s[i..], sep, j);
            assert s[..i] + s[i..] == s;
          }
        } else {
          assert parts[k] == Split(rest, sep)[k - 1];
        }
      }
  }

  /** A string with no occurrence of the separator splits into itself alone. */
  lemma SplitNoOccurrence(s: string, sep: string)
    requires |sep| > 0
    requires forall j: nat :: !OccursAt(s, sep, j)
    ensures Split(s, sep) == [s]
  {
  }

  /** Occurrences in `p + rest` past the prefix `p` are those of `rest`, so none before `|p| + bound`. */
  lemma PrefixFree(p: string, rest: string, sep: string, bound: nat)
    requires forall j: nat :: j < |p| ==> !OccursAt(p + rest, sep, j)
    requires forall j: nat :: j < bound ==> !OccursAt(rest, sep, j)
    ensures forall j: nat :: j < |p| + bound ==> !OccursAt(p + rest, sep, j)
  {
    var s := p + rest;
    assert s[|p|..] == rest;
    OccursShift(s, sep, |p|);
    forall j: nat | |p| <= j < |p| + bound ensures !OccursAt(s, sep, j) {
      assert !OccursAt(rest, sep, j - |p|);
    }
  }

  /** Dropping the head of `[x] + t` leaves `t`. */
  lemma ConsTail(x: string, t: seq<string>)
    ensures |[x] + t| == |t| + 1 && ([x] + t)[1..] == t
  {
  }

  /** Two strings whose leftmost occurrences are followed by the same text split into the same pieces after the first. */
  lemma SameTail(s: string, a: nat, t: string, b: nat, sep: string)
    requires |sep| > 0
    requires IndexOf(s, sep) == Some(a) && IndexOf(t, sep) == Some(b)
    requires s[a + |sep|..] == t[b + |sep|..]
    ensures |Split(s, sep)| == |Split(t, sep)|
    ensures Split(s, sep)[1..] == Split(t, sep)[1..]
  {
    var after := s[a + |sep|..];
    var tail := Split(after, sep);
    SplitAtFirst(s, sep);
    assert Split(s, sep) == [s[..a]] + tail;
    SplitAtFirst(t, sep);
    assert Split(t, sep) == [t[..b]] + tail;
    ConsTail(s[..a], tail);
    ConsTail(t[..b], tail);
    assert |Split(s, sep)| == |tail| + 1 == |Split(t, sep)|;
  }

  /**
   * A prefix `p` in which no occurrence of `sep` starts does not change the
   * pieces after the first one.
   */
  lemma SplitSkipPrefix(p: string, rest: string, sep: string)
    requires |sep| > 0
    requires forall j: nat :: j < |p| ==> !OccursAt(p + rest, sep, j)
    ensures |Split(p + rest, sep)| == |Split(rest, sep)|
    ensures Split(p + rest, sep)[1..] == Split(rest, sep)[1..]
  {
    var s := p + rest;
    match IndexOf(rest, sep)
    case None =>
      PrefixFree(p, rest, sep, |rest| + 1);
      assert IndexOf(s, sep).None?;
      assert Split(s, sep) == [s];
      assert Split(rest, sep) == [rest];
    case Some(i) =>
      PrefixFree(p, rest, sep, i);
      assert s[|p| + i..|p| + i + |sep|] == rest[i..i + |sep|];
      IndexOfLeftmost(s, sep, |p| + i);
      assert s[|p| + i + |sep|..] == rest[i + |sep|..];
      SameTail(s, |p| + i, rest, i, sep);
  }

  /** When `s` has a sole occurrence at `i`, with no other occurrence starting after it. */
  ghost predicate SoleOccurrence(s: string, sep: string, i: nat) {
    && OccursAt(s, sep, i)
    && (forall j: nat :: j < i ==> !OccursAt(s, sep, j))
    && (forall j: nat :: i + |sep| <= j ==> !OccursAt(s, sep, j))
  }

  /** A sole occurrence at `i` splits `s` into the text before it and the text after it. */
  lemma SoleOccurrenceSplits(s: string, sep: string, i: nat)
    requires |sep| > 0
    requires SoleOccurrence(s, sep, i)
    ensures Split(s, sep) == [s[..i], s[i + |sep|..]]
  {
    IndexOfLeftmost(s, sep, i);
    var rest := s[i + |sep|..];
    SplitAtFirst(s, sep);
    forall j: nat ensures !OccursAt(rest, sep, j) {
      OccursShift(s, sep, i + |sep|);
      assert !OccursAt(s, sep, i + |sep| + j);
    }
    SplitNoOccurrence(rest, sep);
  }

  /** No occurrence in `s[k..]` means no occurrence in `s` starting at `k` or later. */
  lemma NothingBeyond(s: string, sep: string, k: nat)
    requires k <= |s|
    requires forall j: nat :: !OccursAt(s[k..], sep, j)
    ensures forall j: nat :: k <= j ==> !OccursAt(s, sep, j)
  {
    OccursShift(s, sep, k);
    forall j: nat | k <= j ensures !OccursAt(s, sep, j) {
      assert !OccursAt(s[k..], sep, j - k);
    }
  }

  /** A single piece means no occurrence at all. */
  lemma OnePiece(s: string, sep: string)
    requires |sep| > 0
    requires |Split(s, sep)| == 1
    ensures IndexOf(s, sep).None?
  {
    if IndexOf(s, sep).Some? {
      SplitAtFirst(s, sep);
    }
  }

  /** A leftmost occurrence with nothing after it is the sole one. */
  lemma SoleWhenRestEmpty(s: string, sep: string, i: nat)
    requires |sep| > 0
    requires IndexOf(s, sep) == Some(i)
    requires IndexOf(s[i + |sep|..], sep).None?
    ensures SoleOccurrence(s, sep, i)
  {
    NothingBeyond(s, sep, i + |sep|);
  }

  /** Two pieces means the leftmost occurrence is the only one. */
  lemma TwoPiecesSole(s: string, sep: string)
    requires |sep| > 0
    requires |Split(s, sep)| == 2
    ensures IndexOf(s, sep).Some? && SoleOccurrence(s, sep, IndexOf(s, sep).value)
  {
    match IndexOf(s, sep)
    case Some(i) =>
      var rest := s[i + |sep|..];
      SplitAtFirst(s, sep);
      OnePiece(rest, sep);
      SoleWhenRestEmpty(s, sep, i);
  }

  /**
   * `s.split(sep)` has exactly two pieces iff `sep` occurs once (non-overlapping,
   * scanning left to right); the second piece is then everything after it.
   */
  lemma SplitInTwo(s: string, sep: string)
    requires |sep| > 0
    ensures |Split(s, sep)| == 2 <==> exists i: nat :: SoleOccurrence(s, sep, i)
    ensures forall i: nat :: SoleOccurrence(s, sep, i) ==> Split(s, sep) == [s[..i], s[i + |sep|..]]
  {
    if |Split(s, sep)| == 2 {
      TwoPiecesSole(s, sep);
    }
    forall i: nat | SoleOccurrence(s, sep, i) ensures Split(s, sep) == [s[..i], s[i + |sep|..]] {
      SoleOccurrenceSplits(s, sep, i);
    }
  }

  /**
   * With a one-character separator `c` absent from `a`, `(a + c + b).split(c)`
   * is `a` followed by the pieces of `b`.
   */
  lemma SplitCons(a: string, c: char, b: string)
    requires c !in a
    ensures Split(a + [c] + b, [c]) == [a] + Split(b, [c])
  {
    var s := a + [c] + b;
    assert OccursAt(s, [c], |a|) by {
      assert s[|a|..|a| + 1] == [c];
    }
    forall j: nat | j < |a| ensures !OccursAt(s, [c], j) {
      assert s[j..j + 1] == [a[j]];
    }
    IndexOfLeftmost(s, [c], |a|);
    assert s[..|a|] == a;
    assert s[|a| + 1..] == b;
  }

  /** A string without the one-character separator `c` is its own single piece. */
  lemma SplitWithout(s: string, c: char)
    requires c !in s
    ensures Split(s, [c]) == [s]
  {
    forall j: nat ensures !OccursAt(s, [c], j) {
      if j + 1 <= |s| {
        assert s[j..j + 1] == [s[j]];
      }
    }
    SplitNoOccurrence(s, [c]);
  }

  /** The text before the first `c`: `s.split(c)[0]`, which `.shift()` returns. */
  function FirstPiece(s: string, c: char): (r: string)
    ensures c !in r
    ensures r == s || (|r| < |s| && s[|r|] == c)
    ensures r == s[..|r|]
  {
    var parts := Split(s, [c]);
    SplitPiecesAvoidSeparator(s, [c]);
    JoinSplit(s, [c]);
    assert c !in parts[0] by {
      forall j | 0 <= j < |parts[0]| ensures parts[0][j] != c {
        assert !OccursAt(parts[0], [c], j);
        assert parts[0][j..j + 1] == [parts[0][j]];
      }
    }
    parts[0]
  }

  /** A string without the separator is its own first piece. */
  lemma FirstPieceWithout(s: string, c: char)
    requires c !in s
    ensures FirstPiece(s, c) == s
  {
  }
}

=== FILE: login_page.dfy ===
/**
 * The two-step login page: a phone number, then the code sent to it. The
 * page's own state is three fields; everything it does to the outside world
 * (toasts, the two requests, the provider's `login`, navigation) is returned
 * as a list of effects, and the server's answers arrive as events.
 */
module LoginPage {
  import opened Wrappers
  import Session
  import JsTrim

  /** The page's state. */
  datatype LoginForm = LoginForm(phone: string, code: string, verificationSent: bool)

  /** Which of the two forms is on screen. */
  datatype Step = PhoneStep | CodeStep

  /** The answer to a successful code check. */
  datatype VerifyResponse = VerifyResponse(message: string, user: Session.User, accessToken: string)

  /** A failed request: the error's own message and the server's message, if it sent one. */
  datatype RequestError = RequestError(message: string, serverMessage: Option<string>)

  /** What a handler asks of the outside world, in order. */
  datatype Effect =
    | ToastError(text: string)
    | ToastSuccess(text: string)
    | SendCodeRequest(phone: string)
    | VerifyRequest(phone: string, code: string)
    | CallLogin(user: Session.User, token: string)
    | NavigateTo(path: string)

  /** Everything that can happen to the page. */
  datatype Event =
    | EditPhone(phone: string)
    | EditCode(code: string)
    | SubmitPhone
    | SendSucceeded
    | SendFailed(error: RequestError)
    | SubmitCode
    | VerifySucceeded(response: VerifyResponse)
    | VerifyFailed(error: RequestError)
    | BackToPhone

  /** A handler's result: the next state and its effects. */
  datatype Outcome = Outcome(form: LoginForm, effects: seq<Effect>)

  /** The roles allowed into the panel. */
  predicate IsAdminRole(role: string) {
    role == "ADMIN" || role == "SUPER_ADMIN"
  }

  /** The empty page. */
  function InitialForm(): (f: LoginForm)
    ensures f.phone == "" && f.code == "" && !f.verificationSent
  {
    LoginForm("", "", false)
  }

  /** The form on screen depends on nothing but whether a code was sent. */
  function Shown(f: LoginForm): Step {
    if !f.verificationSent then PhoneStep else CodeStep
  }

  /** One event. */
  function Handle(f: LoginForm, ev: Event): (o: Outcome)
    ensures ev.BackToPhone? ==> o.form == f.(verificationSent := false, code := "")
    ensures !ev.SendSucceeded? && !ev.BackToPhone? ==> o.form.verificationSent == f.verificationSent
  {
    match ev
    case EditPhone(p) => Outcome(f.(phone := p), [])
    case EditCode(c) => Outcome(f.(code := c), [])
    case SubmitPhone =>
      if f.phone == "" then Outcome(f, [ToastError("Please enter your phone number")])
      else Outcome(f, [SendCodeRequest(f.phone)])
    case SendSucceeded =>
      Outcome(f.(verificationSent := true), [ToastSuccess("Verification code sent successfully")])
    case SendFailed(err) =>
      Outcome(f, [ToastError(JsTrim.OrElse(err.serverMessage.GetOr(""), "Failed to send verification code"))])
    case SubmitCode =>
      if f.code == "" then Outcome(f, [ToastError("Please enter the verification code")])
      else Outcome(f, [VerifyRequest(f.phone, f.code)])
    case VerifySucceeded(resp) =>
      if IsAdminRole(resp.user.role) then
        Outcome(f, [ToastSuccess(JsTrim.OrElse(resp.message, "Login successful")),
                    CallLogin(resp.user, resp.accessToken),
                    NavigateTo("/dashboard")])
      else
        Outcome(f, [ToastError("Access denied. Only administrators can access this panel.")])
    case VerifyFailed(err) =>
      // the hook's own handler runs first, then the page's
      Outcome(f, [ToastError(JsTrim.OrElse(err.serverMessage.GetOr(""), "Verification failed")),
                  ToastError(JsTrim.OrElse(err.message, "Verification failed"))])
    case BackToPhone => Outcome(f.(verificationSent := false, code := ""), [])
  }

  /** A run of events from `f`: the final state and all effects in order. */
  function Run(f: LoginForm, evs: seq<Event>): Outcome
    decreases |evs|
  {
    if evs == [] then Outcome(f, [])
    else
      var first := Handle(f, evs[0]);
      var rest := Run(first.form, evs[1..]);
      Outcome(rest.form, first.effects + rest.effects)
  }

  /** A send request goes out exactly when the phone field is non-empty; otherwise only an error toast. */
  lemma SubmitPhoneSendsIffPhone(f: LoginForm)
    ensures Handle(f, SubmitPhone).form == f
    ensures SendCodeRequest(f.phone) in Handle(f, SubmitPhone).effects <==> f.phone != ""
    ensures f.phone == "" ==> Handle(f, SubmitPhone).effects == [ToastError("Please enter your phone number")]
  {
  }

  /** A verify request goes out exactly when the code field is non-empty; otherwise only an error toast. */
  lemma SubmitCodeVerifiesIffCode(f: LoginForm)
    ensures Handle(f, SubmitCode).form == f
    ensures VerifyRequest(f.phone, f.code) in Handle(f, SubmitCode).effects <==> f.code != ""
    ensures f.code == "" ==> Handle(f, SubmitCode).effects == [ToastError("Please enter the verification code")]
  {
  }

  /**
   * The admin gate: after a successful code check the provider's `login` is
   * called, and the page moves to the dashboard, exactly when the role is
   * ADMIN or SUPER_ADMIN.
   */
  lemma RoleGate(f: LoginForm, resp: VerifyResponse)
    ensures CallLogin(resp.user, resp.accessToken) in Handle(f, VerifySucceeded(resp)).effects
            <==> IsAdminRole(resp.user.role)
    ensures NavigateTo("/dashboard") in Handle(f, VerifySucceeded(resp)).effects <==> IsAdminRole(resp.user.role)
    ensures !IsAdminRole(resp.user.role) ==>
              forall e :: e in Handle(f, VerifySucceeded(resp)).effects ==> e.ToastError?
  {
  }

  /** No event but a successful verification ever calls `login` or navigates. */
  lemma OnlyVerificationLogsIn(f: LoginForm, ev: Event)
    requires !ev.VerifySucceeded?
    ensures forall e :: e in Handle(f, ev).effects ==> !e.CallLogin? && !e.NavigateTo?
  {
  }

  /** Going back keeps the phone number, forgets the code and shows the phone form. */
  lemma BackKeepsPhone(f: LoginForm)
    ensures Handle(f, BackToPhone).form.phone == f.phone
    ensures Handle(f, BackToPhone).form.code == ""
    ensures Shown(Handle(f, BackToPhone).form) == PhoneStep
  {
  }

  /**
   * The code form appears only after the server confirmed sending a code:
   * a run that starts on the phone form and ends on the code form contains a
   * `SendSucceeded`, and every `BackToPhone` in it is followed by another one.
   */
  lemma {:induction false} CodeStepNeedsSentCode(f: LoginForm, evs: seq<Event>)
    requires Shown(Run(f, evs).form) == CodeStep
    ensures Shown(f) == CodeStep || exists i :: 0 <= i < |evs| && evs[i].SendSucceeded?
    ensures forall i :: 0 <= i < |evs| && evs[i].BackToPhone? ==>
              exists j :: i < j < |evs| && evs[j].SendSucceeded?
    decreases |evs|
  {
    if evs != [] {
      var next := Handle(f, evs[0]).form;
      CodeStepNeedsSentCode(next, evs[1..]);
      if Shown(next) == CodeStep && !evs[0].SendSucceeded? {
        assert f.verificationSent;
      }
      if Shown(f) != CodeStep && !evs[0].SendSucceeded? {
        var i :| 0 <= i < |evs[1..]| && evs[1..][i].SendSucceeded?;
        assert evs[i + 1].SendSucceeded?;
      }
      forall i | 0 <= i < |evs| && evs[i].BackToPhone?
        ensures exists j :: i < j < |evs| && evs[j].SendSucceeded?
      {
        if i == 0 {
          assert Shown(next) == PhoneStep;
          var k :| 0 <= k < |evs[1..]| && evs[1..][k].SendSucceeded?;
          assert evs[k + 1].SendSucceeded?;
        } else {
          assert evs[1..][i - 1].BackToPhone?;
          var k :| i - 1 < k < |evs[1..]| && evs[1..][k].SendSucceeded?;
          assert evs[k + 1].SendSucceeded?;
        }
      }
    }
  }
}

=== FILE: monthly_growth.dfy ===
/**
 * The dashboard's monthly growth chart: the empty-state card when there is
 * no data, otherwise one bar pair per month, each month's tick labelled by
 * `formatMonth` ("2024-03" reads "Mar 2024" with the Uzbek month
 * abbreviations).
 */
module MonthlyGrowth {
  import opened Wrappers
  import JsSplit
  import JsNumber

  /** One month of the growth statistics, as the server sends it. */
  datatype GrowthItem = GrowthItem(month: string, count: int, revenue: int)

  /** One bar pair of the chart. */
  datatype Point = Point(month: string, count: int, revenue: int)

  /** What the card shows: the empty state, or the bars with their tick labels. */
  datatype Chart = EmptyCard | Bars(points: seq<Point>, ticks: seq<string>)

  /** The month abbreviations, January first. */
  const MONTHS: seq<string> := ["Yan", "Fev", "Mar", "Apr", "May", "Iyun", "Iyul", "Avg", "Sen", "Okt", "Noy", "Dek"]

  /** The table has twelve different entries, none of them the text `undefined`. */
  lemma MonthsTable()
    ensures |MONTHS| == 12
    ensures forall i, j :: 0 <= i < j < |MONTHS| ==> MONTHS[i] != MONTHS[j]
    ensures forall i :: 0 <= i < |MONTHS| ==> MONTHS[i] != "undefined"
  {
  }

  /** `months[n - 1]` in a template: an entry for 1 to 12, `undefined` for anything else, `NaN` included. */
  function MonthName(n: Option<int>): (name: string)
    ensures n.Some? && 1 <= n.value <= 12 ==> name == MONTHS[n.value - 1]
    ensures !(n.Some? && 1 <= n.value <= 12) ==> name == "undefined"
  {
    if n.Some? && 1 <= n.value <= 12 then MONTHS[n.value - 1] else "undefined"
  }

  /** A month name reads `undefined` exactly when the number is `NaN` or outside 1 to 12. */
  lemma UndefinedIffOutOfRange(n: Option<int>)
    ensures MonthName(n) == "undefined" <==> n.None? || !(1 <= n.value <= 12)
  {
    if n.Some? && 1 <= n.value <= 12 {
      MonthsTable();
      assert MONTHS[n.value - 1] != "undefined";
    }
  }

  /** The text before the first `-`: the year. */
  function Year(month: string): string {
    JsSplit.Split(month, "-")[0]
  }

  /** The text between the first and the second `-`: the month number, `undefined` when there is no `-`. */
  function MonthNumber(month: string): string {
    var parts := JsSplit.Split(month, "-");
    if |parts| >= 2 then parts[1] else "undefined"
  }

  /** `formatMonth`: the name of the parsed month number, then the year. */
  function FormatMonth(month: string): string {
    MonthName(JsNumber.ParseInt(MonthNumber(month))) + " " + Year(month)
  }

  /** `chartData`: each item's month, count and revenue, in the same order. */
  function ChartData(data: seq<GrowthItem>): (points: seq<Point>)
    ensures |points| == |data|
    ensures forall i :: 0 <= i < |data| ==>
              points[i].month == data[i].month && points[i].count == data[i].count && points[i].revenue == data[i].revenue
  {
    seq(|data|, i requires 0 <= i < |data| => Point(data[i].month, data[i].count, data[i].revenue))
  }

  /** The card: empty when the data is missing or empty, otherwise the bars, each tick formatted from its month. */
  function Render(data: Option<seq<GrowthItem>>): (c: Chart)
    ensures c.EmptyCard? <==> data.None? || |data.value| == 0
    ensures c.Bars? ==> c.points == ChartData(data.value)
    ensures c.Bars? ==> |c.ticks| == |c.points|
    ensures c.Bars? ==> forall i :: 0 <= i < |c.ticks| ==> c.ticks[i] == FormatMonth(c.points[i].month)
  {
    if data.None? || |data.value| == 0 then EmptyCard
    else
      var points := ChartData(data.value);
      Bars(points, seq(|points|, i requires 0 <= i < |points| => FormatMonth(points[i].month)))
  }

  /** The year and the month number of a `YYYY-MM` month, or of a `YYYY-MM-DD` date. */
  lemma DatePieces(year: string, mm: string, tail: string)
    requires '-' !in year && '-' !in mm
    requires tail == [] || tail[0] == '-'
    ensures Year(year + "-" + mm + tail) == year
    ensures MonthNumber(year + "-" + mm + tail) == mm
  {
    var s := year + "-" + mm + tail;
    assert s == year + ['-'] + (mm + tail);
    JsSplit.SplitCons(year, '-', mm + tail);
    if tail == [] {
      assert mm + tail == mm;
      JsSplit.SplitWithout(mm, '-');
    } else {
      assert mm + tail == mm + ['-'] + tail[1..];
      JsSplit.SplitCons(mm, '-', tail[1..]);
    }
  }

  /** The label of a month text whose year and month name are known. */
  lemma FormatMonthIs(month: string, year: string, name: string)
    requires Year(month) == year && MonthName(JsNumber.ParseInt(MonthNumber(month))) == name
    ensures FormatMonth(month) == name + " " + year
  {
  }

  /**
   * A `YYYY-MM` month, or a `YYYY-MM-DD` date, whose month number parses to
   * 1 to 12 (`03`, but also `3`) is labelled with that month's abbreviation
   * and the year.
   */
  lemma FormatMonthOfDate(year: string, mm: string, tail: string, v: int)
    requires '-' !in year && '-' !in mm
    requires JsNumber.ParseInt(mm) == Some(v) && 1 <= v <= 12
    requires tail == [] || tail[0] == '-'
    ensures FormatMonth(year + "-" + mm + tail) == MONTHS[v - 1] + " " + year
  {
    DatePieces(year, mm, tail);
    LabelOfPieces(year + "-" + mm + tail, year, mm, v);
  }

  /** A two-digit month number from 01 to 12 parses to its value. */
  lemma TwoDigitMonth(mm: string)
    requires |mm| == 2 && JsNumber.AllDigits(mm, 10)
    ensures '-' !in mm && JsNumber.ParseInt(mm) == Some(JsNumber.ValueOf(mm, 10))
  {
    assert JsNumber.IsDigit(mm[0], 10) && JsNumber.IsDigit(mm[1], 10);
    JsNumber.ParseIntDecimal(mm);
  }

  /** The label of a month text whose year and month number are known, the number naming a month. */
  lemma LabelOfPieces(month: string, year: string, mm: string, v: int)
    requires Year(month) == year && MonthNumber(month) == mm
    requires JsNumber.ParseInt(mm) == Some(v) && 1 <= v <= 12
    ensures FormatMonth(month) == MONTHS[v - 1] + " " + year
  {
    var name := MonthName(Some(v));
    assert name == MONTHS[v - 1];
    FormatMonthIs(month, year, name);
  }

  /** A month text with no `-` has no month number, so its label starts with `undefined`. */
  lemma FormatMonthWithoutDash(month: string)
    requires '-' !in month
    ensures FormatMonth(month) == "undefined" + " " + month
  {
    JsSplit.SplitWithout(month, '-');
    assert Year(month) == month;
    assert MonthNumber(month) == "undefined";
    UndefinedHasNoDigits(MonthNumber(month));
    FormatMonthIs(month, month, "undefined");
  }

  /** `parseInt("undefined")` is `NaN`. */
  lemma UndefinedHasNoDigits(u: string)
    requires u == "undefined"
    ensures JsNumber.ParseInt(u) == None
  {
    assert u[0] == 'u';
    JsNumber.ParseIntLeadingOther(u);
  }

  /** A month number outside 1 to 12, or one that does not parse, is labelled `undefined`. */
  lemma FormatMonthOutOfRange(year: string, mm: string)
    requires '-' !in year && '-' !in mm
    requires JsNumber.ParseInt(mm).None? || !(1 <= JsNumber.ParseInt(mm).value <= 12)
    ensures FormatMonth(year + "-" + mm) == "undefined" + " " + year
  {
    var s := year + "-" + mm;
    assert s + [] == s;
    DatePieces(year, mm, []);
    FormatMonthIs(s, year, "undefined");
  }
}

=== FILE: paging.dfy ===
/**
 * The pagination arithmetic shared by the user list and the plan list: row
 * numbers and the "showing X to Y of N" label.
 */
module Paging {

  function Min(a: int, b: int): (m: int)
    ensures m <= a && m <= b && (m == a || m == b)
  {
    if a <= b then a else b
  }

  /** The 1-based position in the whole list of row `index` on page `page`. */
  function RowNumber(page: int, limit: int, index: int): int {
    (page - 1) * limit + index + 1
  }

  /** The first number of the range label. */
  function RangeStart(page: int, limit: int): int {
    (page - 1) * limit + 1
  }

  /** The last number of the range label: the page's end, capped by the total. */
  function RangeEnd(page: int, limit: int, total: int): (e: int)
    ensures e <= total && e <= page * limit
    ensures e == total || e == page * limit
  {
    Min(page * limit, total)
  }

  /** How many rows a full list of `total` puts on page `page`. */
  function RowsOnPage(page: int, limit: int, total: int): int {
    Min(limit, total - (page - 1) * limit)
  }

  /** The last row of a page and the first row of the next one are consecutive numbers. */
  lemma RowsContiguous(page: int, limit: int)
    ensures RowNumber(page, limit, limit - 1) + 1 == RowNumber(page + 1, limit, 0)
  {
  }

  /** Rows on two different pages never share a number. */
  lemma RowsDisjoint(p: int, q: int, limit: int, i: int, j: int)
    requires limit >= 1 && 0 <= i < limit && 0 <= j < limit
    requires p != q
    ensures RowNumber(p, limit, i) != RowNumber(q, limit, j)
  {
    if p > q {
      MulAtLeast(p - q, limit);
      assert (p - 1) * limit - (q - 1) * limit == (p - q) * limit;
    } else {
      MulAtLeast(q - p, limit);
      assert (q - 1) * limit - (p - 1) * limit == (q - p) * limit;
    }
  }

  lemma MulAtLeast(a: int, b: int)
    requires a >= 1 && b >= 0
    ensures a * b >= b
  {
    assert a * b == (a - 1) * b + b;
    assert (a - 1) * b >= 0;
  }

  /**
   * The label agrees with the rows shown: on a page holding at least one
   * row of a list of `total`, it runs from the first row's number to the
   * last row's number.
   */
  lemma RangeMatchesRows(page: int, limit: int, total: int)
    requires page >= 1 && limit >= 1
    requires RowsOnPage(page, limit, total) > 0
    ensures RangeStart(page, limit) == RowNumber(page, limit, 0)
    ensures RangeEnd(page, limit, total) == RowNumber(page, limit, RowsOnPage(page, limit, total) - 1)
  {
    assert (page - 1) * limit + limit == page * limit;
  }
}

=== FILE: plan_actions.dfy ===
/**
 * The plan list's pagination bar. The server sends `page` and `limit` as
 * strings; the bar parses them with `parseInt`, falling back to page 1 of
 * 10 when parsing gives `NaN` or 0.
 */
module PlanActions {
  import opened Wrappers
  import JsNumber
  import Paging

  /** The pagination block of the plans response. */
  datatype PlanPagination = PlanPagination(
    page: string,
    limit: string,
    total: int,
    totalPages: int,
    hasNext: bool,
    hasPrev: bool)

  /** One numbered link of the bar. */
  datatype PageLink = PageLink(number: int, active: bool)

  /** `parseInt(page) || 1`. */
  function CurrentPage(p: PlanPagination): int {
    JsNumber.OrDefault(JsNumber.ParseInt(p.page), 1)
  }

  /** `parseInt(limit) || 10`. */
  function ItemsPerPage(p: PlanPagination): int {
    JsNumber.OrDefault(JsNumber.ParseInt(p.limit), 10)
  }

  /** The "Showing X to Y of N plans" numbers. */
  function Label(p: PlanPagination): (int, int, int) {
    (Paging.RangeStart(CurrentPage(p), ItemsPerPage(p)),
     Paging.RangeEnd(CurrentPage(p), ItemsPerPage(p), p.total),
     p.total)
  }

  /** The previous control: `hasPrev && onPageChange(currentPage - 1)`. */
  function OnPrevious(p: PlanPagination): (r: Option<int>)
    ensures r.Some? <==> p.hasPrev
    ensures r.Some? ==> r.value == CurrentPage(p) - 1
  {
    if p.hasPrev then Some(CurrentPage(p) - 1) else None
  }

  /** The next control: `hasNext && onPageChange(currentPage + 1)`. */
  function OnNext(p: PlanPagination): (r: Option<int>)
    ensures r.Some? <==> p.hasNext
    ensures r.Some? ==> r.value == CurrentPage(p) + 1
  {
    if p.hasNext then Some(CurrentPage(p) + 1) else None
  }

  /** A click on a numbered link requests that page. */
  function OnLinkClick(link: PageLink): int {
    link.number
  }

  /**
   * The numbered links: `Array.from({ length: totalPages }, (_, i) => i + 1)`,
   * each marked active when it is the current page. A length below zero
   * gives no links.
   */
  method PageLinks(totalPages: int, currentPage: int) returns (links: seq<PageLink>)
    ensures |links| == if totalPages > 0 then totalPages else 0
    ensures forall i :: 0 <= i < |links| ==> links[i].number == i + 1
    ensures forall i :: 0 <= i < |links| ==> 1 <= OnLinkClick(links[i]) <= totalPages
    ensures forall i :: 0 <= i < |links| ==> (links[i].active <==> links[i].number == currentPage)
    ensures (exists i :: 0 <= i < |links| && links[i].active) <==> 1 <= currentPage <= totalPages
    ensures forall i, j :: 0 <= i < |links| && 0 <= j < |links| && links[i].active && links[j].active ==> i == j
  {
    var n := if totalPages > 0 then totalPages else 0;
    links := [];
    var k := 0;
    while k < n
      invariant 0 <= k <= n
      invariant |links| == k
      invariant forall i :: 0 <= i < k ==> links[i].number == i + 1
      invariant forall i :: 0 <= i < k ==> (links[i].active <==> links[i].number == currentPage)
    {
      links := links + [PageLink(k + 1, k + 1 == currentPage)];
      k := k + 1;
    }
    if 1 <= currentPage <= totalPages {
      assert links[currentPage - 1].active;
    }
  }

  /** A page number the server sent as digits is read back as that number; "0" falls back to page 1. */
  lemma PageFromDigits(p: PlanPagination, n: nat)
    requires p.page == JsNumber.ShowNat(n)
    ensures CurrentPage(p) == if n == 0 then 1 else n
  {
    JsNumber.ParseIntShowNat(n);
  }

  /** A page or limit with no digits at all falls back to page 1 of 10. */
  lemma NonNumericFallsBack(p: PlanPagination)
    requires forall i :: 0 <= i < |p.page| ==> !('0' <= p.page[i] <= '9')
    requires forall i :: 0 <= i < |p.limit| ==> !('0' <= p.limit[i] <= '9')
    ensures CurrentPage(p) == 1 && ItemsPerPage(p) == 10
  {
    JsNumber.ParseIntNoDigits(p.page);
    JsNumber.ParseIntNoDigits(p.limit);
  }

  /**
   * The label's end never passes the total, and with a positive page size
   * it shows a non-empty range exactly when the current page starts inside
   * the list; a page past the end reads "Showing X to Y" with Y below X.
   */
  lemma LabelBounds(p: PlanPagination)
    ensures Label(p).1 <= p.total
    ensures ItemsPerPage(p) >= 1 ==>
              (Label(p).0 <= Label(p).1 <==> (CurrentPage(p) - 1) * ItemsPerPage(p) < p.total)
  {
    var c, l := CurrentPage(p), ItemsPerPage(p);
    assert c * l == (c - 1) * l + l;
  }

  /**
   * With flags that agree with the page number (a previous page exactly when
   * past page 1, a next page exactly when before the last), both controls
   * only ever request a page that exists, and the neighbouring one.
   */
  lemma ControlsStayInRange(p: PlanPagination)
    requires 1 <= CurrentPage(p) <= p.totalPages
    requires p.hasPrev <==> CurrentPage(p) > 1
    requires p.hasNext <==> CurrentPage(p) < p.totalPages
    ensures OnPrevious(p).Some? ==> 1 <= OnPrevious(p).value <= p.totalPages && OnPrevious(p).value == CurrentPage(p) - 1
    ensures OnNext(p).Some? ==> 1 <= OnNext(p).value <= p.totalPages && OnNext(p).value == CurrentPage(p) + 1
  {
  }
}

=== FILE: plan_form.dfy ===
/**
 * The plan editor's form state: a partial plan, as a map from field to
 * value, reset from the plan being edited or to fixed defaults, and edited
 * one field at a time. Numbers are modelled as integers.
 */
module PlanForm {
  import opened Wrappers

  /** The fields of a plan record. */
  datatype PlanField =
    | Id | Icon | Title | Description | Features | Price | Currency | DurationInDays
    | TrialCount | IsActive | BillingCycle | Type | Status | Tags | MaxUsers
    | MaxSubmissions | IsPopular | SortOrder | StripePriceId | StripeProductId
    | CreatedAt | UpdatedAt

  /** A field value. */
  datatype Value = Str(s: string) | Num(n: int) | Flag(b: bool) | StrList(items: seq<string>)

  /** A plan, or a partial one being edited: only the fields present are set. */
  type Plan = map<PlanField, Value>

  /** The form a new plan starts from. */
  function DefaultForm(): (f: Plan)
    ensures Title in f && Features in f && Price in f && Currency in f && DurationInDays in f
    ensures BillingCycle in f && Status in f && MaxUsers in f && MaxSubmissions in f
    ensures f.Keys == {Title, Description, Features, Price, Currency, DurationInDays, TrialCount,
                       IsActive, BillingCycle, Type, Status, Tags, MaxUsers, MaxSubmissions,
                       IsPopular, SortOrder}
    ensures f[Title] == Str("") && f[Features] == StrList([]) && f[Price] == Num(0)
    ensures f[Currency] == Str("UZS") && f[DurationInDays] == Num(30) && f[BillingCycle] == Str("MONTHLY")
    ensures f[Status] == Str("ACTIVE") && f[MaxUsers] == Num(1) && f[MaxSubmissions] == Num(10)
  {
    map[
      Title := Str(""),
      Description := Str(""),
      Features := StrList([]),
      Price := Num(0),
      Currency := Str("UZS"),
      DurationInDays := Num(30),
      TrialCount := Num(0),
      IsActive := Flag(true),
      BillingCycle := Str("MONTHLY"),
      Type := Str(""),
      Status := Str("ACTIVE"),
      Tags := StrList([]),
      MaxUsers := Num(1),
      MaxSubmissions := Num(10),
      IsPopular := Flag(false),
      SortOrder := Num(0)
    ]
  }

  /** The effect run whenever the edited plan or the open flag changes: the plan itself, or the defaults. */
  function ResetForm(plan: Option<Plan>): (f: Plan)
    ensures plan.Some? ==> f == plan.value
    ensures plan.None? ==> f == DefaultForm()
  {
    match plan
    case Some(p) => p
    case None => DefaultForm()
  }

  /** `handleChange(field, value)`: one field set, every other field as it was. */
  function HandleChange(f: Plan, field: PlanField, v: Value): (r: Plan)
    ensures field in r && r[field] == v
    ensures forall k :: k != field ==> (k in r <==> k in f) && (k in f ==> r[k] == f[k])
  {
    f[field := v]
  }

  /** `formData.features || []`. */
  function FeatureList(f: Plan): seq<string> {
    if Features in f && f[Features].StrList? then f[Features].items else []
  }

  /** `handleFeatureChange(index, value)` for one of the rendered feature inputs. */
  function FeatureChange(f: Plan, index: int, v: string): (r: Plan)
    requires 0 <= index < |FeatureList(f)|
    ensures |FeatureList(r)| == |FeatureList(f)|
    ensures FeatureList(r)[index] == v
    ensures forall i :: 0 <= i < |FeatureList(f)| && i != index ==> FeatureList(r)[i] == FeatureList(f)[i]
    ensures forall k :: k != Features ==> (k in r <==> k in f) && (k in f ==> r[k] == f[k])
  {
    HandleChange(f, Features, StrList(FeatureList(f)[index := v]))
  }

  /** `addFeature`: one empty feature appended. */
  function AddFeature(f: Plan): (r: Plan)
    ensures FeatureList(r) == FeatureList(f) + [""]
    ensures forall k :: k != Features ==> (k in r <==> k in f) && (k in f ==> r[k] == f[k])
  {
    HandleChange(f, Features, StrList(FeatureList(f) + [""]))
  }

  /**
   * `Array.prototype.splice(index, 1)` on a copy: a negative index counts
   * from the end, and an index past the end removes nothing.
   */
  function SpliceOne(s: seq<string>, index: int): (r: seq<string>)
    ensures 0 <= index < |s| ==> r == s[..index] + s[index + 1..]
    ensures index >= |s| ==> r == s
    ensures -|s| <= index < 0 ==> r == s[..|s| + index] + s[|s| + index + 1..]
  {
    var start := if index < 0 then (if |s| + index > 0 then |s| + index else 0)
                 else (if index < |s| then index else |s|);
    if start < |s| then s[..start] + s[start + 1..] else s
  }

  /** `removeFeature(index)`. */
  function RemoveFeature(f: Plan, index: int): (r: Plan)
    ensures FeatureList(r) == SpliceOne(FeatureList(f), index)
    ensures forall k :: k != Features ==> (k in r <==> k in f) && (k in f ==> r[k] == f[k])
  {
    HandleChange(f, Features, StrList(SpliceOne(FeatureList(f), index)))
  }

  /** Removing at a rendered index drops exactly that feature, one shorter, the others in order. */
  lemma RemoveFeatureAtIndex(f: Plan, index: int)
    requires 0 <= index < |FeatureList(f)|
    ensures |FeatureList(RemoveFeature(f, index))| == |FeatureList(f)| - 1
    ensures forall i :: 0 <= i < index ==> FeatureList(RemoveFeature(f, index))[i] == FeatureList(f)[i]
    ensures forall i :: index <= i < |FeatureList(f)| - 1 ==>
              FeatureList(RemoveFeature(f, index))[i] == FeatureList(f)[i + 1]
  {
  }

  /** Adding a feature and removing the new last one gives back the same list. */
  lemma AddThenRemoveLast(f: Plan)
    ensures FeatureList(RemoveFeature(AddFeature(f), |FeatureList(f)|)) == FeatureList(f)
  {
    var s := FeatureList(f) + [""];
    assert s[..|FeatureList(f)|] == FeatureList(f);
  }

  /** Editing a feature and then restoring its old text gives back the same list. */
  lemma FeatureChangeUndo(f: Plan, index: int, v: string)
    requires 0 <= index < |FeatureList(f)|
    ensures FeatureList(FeatureChange(FeatureChange(f, index, v), index, FeatureList(f)[index])) == FeatureList(f)
  {
  }

  /** After a reset with no plan, edits to any field but the features leave the feature list empty. */
  lemma DefaultsHaveNoFeatures(field: PlanField, v: Value)
    requires field != Features
    ensures FeatureList(HandleChange(ResetForm(None), field, v)) == []
  {
  }
}

=== FILE: plan_selection.dfy ===
/**
 * The plan-promotion dialog: the administrator picks a plan and types a
 * reason, and the update button hands both to the parent. The parent's
 * promote call and the dialog's open flag live outside the dialog, so the
 * handler's effects are returned for the caller to apply.
 */
module PlanSelection {
  import opened Wrappers
  import JsTrim
  import JsNumber

  /** The dialog's own inputs. */
  datatype ModalState = ModalState(selectedPlanId: string, reason: string)

  /** A promotion the dialog asks for: `onPromote(userId, planId, reason)`. */
  datatype Promotion = Promotion(userId: string, planId: string, reason: string)

  /** What a click on the update button does: the new inputs, the promotion if any, and whether closing was requested. */
  datatype SubmitOutcome = SubmitOutcome(state: ModalState, promotion: Option<Promotion>, closeRequested: bool)

  /** Both inputs start empty. */
  function InitialState(): (s: ModalState)
    ensures s.selectedPlanId == [] && s.reason == []
  {
    ModalState("", "")
  }

  /** The radio group's `onValueChange`. */
  function SelectPlan(s: ModalState, planId: string): (r: ModalState)
    ensures r.selectedPlanId == planId && r.reason == s.reason
  {
    s.(selectedPlanId := planId)
  }

  /** The reason box's `onChange`. */
  function EditReason(s: ModalState, text: string): (r: ModalState)
    ensures r.reason == text && r.selectedPlanId == s.selectedPlanId
  {
    s.(reason := text)
  }

  /** `selectedPlanId && reason.trim()`: a plan is chosen and the reason is not blank. */
  predicate Ready(s: ModalState) {
    s.selectedPlanId != [] && !JsTrim.IsBlank(s.reason)
  }

  /**
   * `handleSubmit`: when ready, the promotion carries the reason exactly as
   * typed, both inputs are cleared and closing is requested; otherwise
   * nothing happens at all.
   */
  function HandleSubmit(s: ModalState, userId: string): (r: SubmitOutcome)
    ensures r.promotion.Some? <==> Ready(s)
    ensures r.promotion.Some? ==> r.promotion.value == Promotion(userId, s.selectedPlanId, s.reason)
    ensures r.promotion.Some? ==> r.state == InitialState() && r.closeRequested
    ensures r.promotion.None? ==> r.state == s && !r.closeRequested
  {
    if Ready(s) then SubmitOutcome(ModalState("", ""), Some(Promotion(userId, s.selectedPlanId, s.reason)), true)
    else SubmitOutcome(s, None, false)
  }

  /** The update button's `disabled`: no plan, a blank reason, or a request in flight. */
  predicate SubmitDisabled(s: ModalState, loading: bool) {
    s.selectedPlanId == [] || JsTrim.IsBlank(s.reason) || loading
  }

  /**
   * The button and the handler agree: when nothing is loading, the button is
   * enabled exactly when a click would promote, and blankness means a reason
   * of white space only.
   */
  lemma DisabledIffNothingToSend(s: ModalState, userId: string)
    ensures !SubmitDisabled(s, false) <==> HandleSubmit(s, userId).promotion.Some?
    ensures JsTrim.IsBlank(s.reason) <==> forall i :: 0 <= i < |s.reason| ==> JsTrim.IsSpace(s.reason[i])
  {
    JsTrim.TrimEmptyIffAllSpace(s.reason);
  }

  /** A reason padded with spaces is sent with its padding. */
  lemma ReasonSentUntrimmed(userId: string, planId: string)
    requires planId != []
    ensures HandleSubmit(ModalState(planId, " ok "), userId).promotion == Some(Promotion(userId, planId, " ok "))
  {
    assert !JsTrim.IsSpace('o');
    JsTrim.TrimEmptyIffAllSpace(" ok ");
  }

  /** Choosing a plan and typing a reason of spaces only sends nothing and keeps both inputs. */
  lemma SpacesOnlyReasonRefused(userId: string, planId: string)
    ensures var s := EditReason(SelectPlan(InitialState(), planId), "   ");
            HandleSubmit(s, userId).promotion.None? && HandleSubmit(s, userId).state == s
  {
    JsTrim.TrimEmptyIffAllSpace("   ");
  }

  /** `String(n)` for an integer. */
  function ShowInt(n: int): (s: string)
    ensures |s| >= 1 && (s[0] == '-' || '0' <= s[0] <= '9')
  {
    var digits := JsNumber.ShowNat(if n < 0 then -n else n);
    assert JsNumber.IsDigit(digits[0], 10);
    if n < 0 then "-" + digits else digits
  }

  /** The user-limit line of a plan card: `0` stands for no limit. */
  function UsersLabel(maxUsers: int): (text: string)
    ensures maxUsers == 0 ==> text == "Unlimited users"
    ensures maxUsers != 0 ==> text == ShowInt(maxUsers) + " users"
  {
    (if maxUsers == 0 then "Unlimited" else ShowInt(maxUsers)) + " users"
  }

  /** Only a limit of zero reads as unlimited. */
  lemma UnlimitedOnlyForZero(maxUsers: int)
    ensures UsersLabel(maxUsers) == "Unlimited users" <==> maxUsers == 0
  {
    if maxUsers != 0 {
      var s := ShowInt(maxUsers);
      assert UsersLabel(maxUsers)[0] == s[0];
      assert "Unlimited users"[0] == 'U';
    }
  }
}

=== FILE: pricing.dfy ===
/**
 * The `usePricing` hook: the plan list's filters and the create/edit/close
 * state of the plan editor.
 */
module PricingHook {
  import opened Wrappers
  import opened PlanForm

  /** The keys of the plan filters. */
  datatype FilterKey =
    | Page | Limit | Search | PlanType | PlanStatus | Cycle | PlanCurrency | MinPrice | MaxPrice
    | Active | Popular | SortBy | Order | PlanTags

  /** The plan filters: only the keys present are set. */
  type Filters = map<FilterKey, Value>

  /** The hook's state. */
  datatype PricingState = PricingState(filters: Filters, formOpen: bool, editing: Option<Plan>)

  /** What the hook keeps true: a plan is only ever being edited inside the open editor. */
  predicate Valid(s: PricingState) {
    s.editing.Some? ==> s.formOpen
  }

  /** Page 1 of 10, newest first, editor closed, nothing being edited. */
  function InitialState(): (s: PricingState)
    ensures s.filters.Keys == {Page, Limit, SortBy, Order}
    ensures s.filters[Page] == Num(1) && s.filters[Limit] == Num(10)
    ensures s.filters[SortBy] == Str("createdAt") && s.filters[Order] == Str("desc")
    ensures !s.formOpen && s.editing.None?
    ensures Valid(s)
  {
    PricingState(map[Page := Num(1), Limit := Num(10), SortBy := Str("createdAt"), Order := Str("desc")], false, None)
  }

  /** `updateFilter(key, value)`: one key set, the rest of the state unchanged. */
  function UpdateFilter(s: PricingState, key: FilterKey, v: Value): (r: PricingState)
    ensures key in r.filters && r.filters[key] == v
    ensures forall k :: k != key ==> (k in r.filters <==> k in s.filters) && (k in s.filters ==> r.filters[k] == s.filters[k])
    ensures r.formOpen == s.formOpen && r.editing == s.editing
  {
    s.(filters := s.filters[key := v])
  }

  /** `handleCreate`: the editor opens on an empty plan. */
  function HandleCreate(s: PricingState): (r: PricingState)
    ensures r.formOpen && r.editing.None? && r.filters == s.filters
  {
    s.(editing := None, formOpen := true)
  }

  /** `handleEdit(plan)`: the editor opens on the plan. */
  function HandleEdit(s: PricingState, p: Plan): (r: PricingState)
    ensures r.formOpen && r.editing == Some(p) && r.filters == s.filters
  {
    s.(editing := Some(p), formOpen := true)
  }

  /** `handleCloseForm`: the editor closes and forgets the plan. */
  function HandleCloseForm(s: PricingState): (r: PricingState)
    ensures !r.formOpen && r.editing.None? && r.filters == s.filters
  {
    s.(formOpen := false, editing := None)
  }

  /** Every operation of the hook keeps it valid. */
  lemma OperationsPreserveValid(s: PricingState, key: FilterKey, v: Value, p: Plan)
    requires Valid(s)
    ensures Valid(UpdateFilter(s, key, v))
    ensures Valid(HandleCreate(s))
    ensures Valid(HandleEdit(s, p))
    ensures Valid(HandleCloseForm(s))
  {
  }

  /** The editor's form follows the hook: the edited plan after an edit, the defaults after a create or a close. */
  lemma EditorShowsEditedPlan(s: PricingState, p: Plan)
    ensures ResetForm(HandleEdit(s, p).editing) == p
    ensures ResetForm(HandleCreate(s).editing) == DefaultForm()
    ensures ResetForm(HandleCloseForm(s).editing) == DefaultForm()
  {
  }
}

/**
 * The pricing page's handlers: submitting the editor, deleting a plan after
 * the browser's confirmation, and paging.
 */
module PricingPage {
  import opened Wrappers
  import opened PlanForm
  import opened PricingHook

  /**
   * The variables of the update mutation. The page fills `data`; the
   * mutation reads its body from `formData`.
   */
  datatype UpdateVariables = UpdateVariables(id: string, data: Option<Plan>, formData: Option<Plan>)

  /** A mutation the page starts. */
  datatype Mutation = CreatePlan(body: Plan) | UpdatePlan(vars: UpdateVariables) | DeletePlan(id: string)

  /** An HTTP request a mutation sends. */
  datatype Request = Request(verb: string, url: string, body: Option<Plan>)

  /** The plans response, as far as the page reads it. */
  datatype PlansResponse = PlansResponse(plans: seq<Plan>, hasPagination: bool)

  /** `editingPlan._id!`: the id, which is `undefined` when the plan has none. */
  function PlanId(p: Plan): string {
    if Id in p && p[Id].Str? then p[Id].s else "undefined"
  }

  /** `handleSubmit(formData)`: an update of the edited plan, or a create; the editor closes either way. */
  function HandleSubmit(s: PricingState, form: Plan): (r: (PricingState, Mutation))
    ensures r.0 == HandleCloseForm(s)
    ensures s.editing.None? <==> r.1.CreatePlan?
  {
    var m := match s.editing
      case Some(p) => UpdatePlan(UpdateVariables(PlanId(p), Some(form), None))
      case None => CreatePlan(form);
    (HandleCloseForm(s), m)
  }

  /** `handleDelete(id)`: a delete only when the confirmation dialog answers yes. */
  function HandleDelete(id: string, confirmed: bool): (r: Option<Mutation>)
    ensures r.Some? <==> confirmed
    ensures r.Some? ==> r.value == DeletePlan(id)
  {
    if confirmed then Some(DeletePlan(id)) else None
  }

  /** `handlePageChange(page)`. */
  function HandlePageChange(s: PricingState, page: int): (r: PricingState)
    ensures Page in r.filters && r.filters[Page] == Num(page)
    ensures forall k :: k != Page ==> (k in r.filters <==> k in s.filters) && (k in s.filters ==> r.filters[k] == s.filters[k])
    ensures r.formOpen == s.formOpen && r.editing == s.editing
  {
    UpdateFilter(s, Page, Num(page))
  }

  /** The request each mutation sends. */
  function RequestOf(m: Mutation): Request {
    match m
    case CreatePlan(body) => Request("POST", "/plans", Some(body))
    case UpdatePlan(vars) => Request("PATCH", "/plans/" + vars.id, vars.formData)
    case DeletePlan(id) => Request("DELETE", "/plans/" + id, None)
  }

  /** `data?.data || []`: the plans for the table. */
  function TablePlans(data: Option<PlansResponse>): (plans: seq<Plan>)
    ensures data.None? ==> plans == []
    ensures data.Some? ==> plans == data.value.plans
  {
    match data
    case None => []
    case Some(r) => r.plans
  }

  /** The pagination bar is rendered only when the response carries pagination. */
  predicate ShowsActions(data: Option<PlansResponse>) {
    data.Some? && data.value.hasPagination
  }

  /**
   * The actions bar, which holds the create button as well as the page
   * controls, needs a response that carries pagination; with no response
   * there are neither actions nor rows.
   */
  lemma ActionsNeedPagination(data: Option<PlansResponse>)
    ensures data.None? ==> !ShowsActions(data) && TablePlans(data) == []
    ensures ShowsActions(data) ==> TablePlans(data) == data.value.plans
  {
  }

  /** Editing a plan and submitting sends a PATCH for that plan's id, and leaves the editor closed. */
  lemma EditThenSubmit(s: PricingState, p: Plan, form: Plan)
    ensures var (after, m) := HandleSubmit(HandleEdit(s, p), form);
            m.UpdatePlan? && m.vars.id == PlanId(p) && m.vars.data == Some(form)
            && RequestOf(m).verb == "PATCH" && RequestOf(m).url == "/plans/" + PlanId(p)
            && !after.formOpen && after.editing.None?
  {
  }

  /** Creating and submitting sends a POST carrying the form. */
  lemma CreateThenSubmit(s: PricingState, form: Plan)
    ensures var (after, m) := HandleSubmit(HandleCreate(s), form);
            RequestOf(m) == Request("POST", "/plans", Some(form)) && !after.formOpen && after.editing.None?
  {
  }

  /**
   * The update handler hands the form over as `data` while the mutation
   * reads `formData`, so every PATCH the page sends has no body.
   */
  lemma UpdateSendsNoBody(s: PricingState, form: Plan)
    requires s.editing.Some?
    ensures RequestOf(HandleSubmit(s, form).1).body.None?
    ensures HandleSubmit(s, form).1.vars.data == Some(form)
  {
  }

  /**
   * The editor resets to the plan being edited and submits its form data as
   * it is, so opening a plan and submitting with no edits sends that plan.
   */
  lemma EditUnchangedThenSubmit(s: PricingState, p: Plan)
    ensures HandleSubmit(HandleEdit(s, p), ResetForm(HandleEdit(s, p).editing)).1
            == UpdatePlan(UpdateVariables(PlanId(p), Some(p), None))
  {
  }

  /** After any submit the hook is back in its closed state and still valid. */
  lemma SubmitClosesEditor(s: PricingState, form: Plan)
    ensures Valid(HandleSubmit(s, form).0)
    ensures !HandleSubmit(s, form).0.formOpen
  {
  }
}

=== FILE: routes.dfy ===
/**
 * The route table and the guard in front of the protected pages. Paths are
 * matched as exact strings.
 */
module Routes {
  import opened Wrappers
  import Session

  /** The pages behind the guard, in table order. */
  const PROTECTED_PATHS: seq<string> := ["/dashboard", "/users", "/settings"]

  /** The page that needs no session. */
  const LOGIN_PATH: string := "/login"

  /** Where `/` and unknown paths lead. */
  const HOME_PATH: string := "/dashboard"

  /** What the router decides for a path, before the guard runs. */
  datatype Match = LoginRoute | ProtectedRoute(path: string) | RedirectRoute(target: string)

  /** What ends up on screen. */
  datatype Screen = Spinner | LoginScreen | PageContent(path: string) | Redirect(target: string)

  /** The route table: the login page, the three protected pages, and a redirect home for everything else. */
  function MatchPath(path: string): (m: Match)
    ensures m.LoginRoute? <==> path == LOGIN_PATH
    ensures m.ProtectedRoute? <==> path in PROTECTED_PATHS
    ensures m.ProtectedRoute? ==> m.path == path
    ensures m.RedirectRoute? ==> m.target == HOME_PATH
  {
    if path == LOGIN_PATH then LoginRoute
    else if path in PROTECTED_PATHS then ProtectedRoute(path)
    else RedirectRoute(HOME_PATH)
  }

  /** `ProtectedRoute`: a spinner while the session is being restored, then the page or a redirect to the login page. */
  function Guard(s: Session.AuthState, path: string): (screen: Screen)
    ensures s.loading ==> screen == Spinner
    ensures !s.loading && s.user.Some? ==> screen == PageContent(path)
    ensures !s.loading && s.user.None? ==> screen == Redirect(LOGIN_PATH)
  {
    if s.loading then Spinner
    else if s.user.Some? then PageContent(path)
    else Redirect(LOGIN_PATH)
  }

  /** The screen for a path in a given session state. */
  function Resolve(s: Session.AuthState, path: string): Screen {
    match MatchPath(path)
    case LoginRoute => LoginScreen
    case ProtectedRoute(p) => Guard(s, p)
    case RedirectRoute(t) => Redirect(t)
  }

  /** A protected page's content is shown only to a signed-in user once restore is over. */
  lemma ContentNeedsSession(s: Session.AuthState, path: string)
    requires Resolve(s, path).PageContent?
    ensures !s.loading && s.user.Some?
    ensures path in PROTECTED_PATHS
  {
  }

  /** The login page is reachable in every session state. */
  lemma LoginUnguarded(s: Session.AuthState)
    ensures Resolve(s, LOGIN_PATH) == LoginScreen
  {
  }

  /** `/` and every path outside the table redirect home. */
  lemma UnknownPathsGoHome(s: Session.AuthState, path: string)
    requires path != LOGIN_PATH && path !in PROTECTED_PATHS
    ensures Resolve(s, path) == Redirect(HOME_PATH)
  {
  }

  /**
   * Redirects settle: following them from any path, with the session fixed,
   * reaches a screen that is not a redirect within two hops.
   */
  lemma RedirectsSettle(s: Session.AuthState, path: string)
    ensures var first := Resolve(s, path);
            first.Redirect? ==>
              var second := Resolve(s, first.target);
              second.Redirect? ==> !Resolve(s, second.target).Redirect?
  {
    assert HOME_PATH in PROTECTED_PATHS;
  }

  /** Once the session has been restored the guard never shows the spinner again, whatever restore found. */
  lemma NoSpinnerAfterRestore(w: Session.World, env: Session.Env, path: string)
    ensures Guard(Session.Restore(w, env).state, path) != Spinner
  {
  }
}

=== FILE: session.dfy ===
/**
 * The auth provider: the `{user, loading}` state, the restore run once on
 * mount (`initializeAuth`), `login` and `logout`, all acting on the two
 * cookies `access_token` and `user`. The clock, the page protocol and the
 * JSON and token decoders arrive in an `Env`.
 */
module Session {
  import opened Wrappers
  import opened Cookies
  import Token
  import JsSplit

  /** The cookie holding the bearer token. */
  const TOKEN_COOKIE: string := "access_token"

  /** The cookie holding the signed-in user as JSON. */
  const USER_COOKIE: string := "user"

  /** The signed-in user as the server describes it. */
  datatype User = User(
    id: string,
    phone: string,
    role: string,
    status: string,
    phoneVerified: bool,
    createdAt: string,
    updatedAt: string,
    lastLoginAt: Option<string>)

  /**
   * `JSON.parse` of the user cookie, as the provider's guard sees it: it
   * throws, or yields a value that `setUser` stores. Any truthy value (a
   * user object, but also `1`, `"x"`, `[]` or `{}`) is `Parsed(Some(_))`,
   * a user record standing for it;
   * a falsy one (`null`, `false`, `0`, `""`) is `Parsed(None)`.
   */
  datatype UserParse = Throws | Parsed(user: Option<User>)

  /** Everything the provider takes from its environment. */
  datatype Env = Env(
    decode: Token.PayloadDecoder,
    parseUser: string -> UserParse,
    serializeUser: User -> string,
    nowMs: int,
    https: bool)

  /** The context value the provider exposes, without its functions. */
  datatype AuthState = AuthState(user: Option<User>, loading: bool)

  /** The session together with the document it reads and writes. */
  datatype World = World(state: AuthState, doc: Document)

  /** The state on mount: nobody signed in, restore still pending. */
  function InitialState(): (s: AuthState)
    ensures s.user.None? && s.loading
  {
    AuthState(None, true)
  }

  /** `deleteCookie('access_token'); deleteCookie('user')` on a page's jar. */
  function ClearSession(jar: Jar, nowMs: int): (r: Jar)
    ensures WellFormed(jar) ==> WellFormed(r)
  {
    Store(Store(jar, DeleteCookie(TOKEN_COOKIE), nowMs), DeleteCookie(USER_COOKIE), nowMs)
  }

  /** The two session cookies as the provider reads them. */
  datatype Reads = Reads(token: Option<string>, userData: Option<string>)

  /** Both `getCookie` calls; the first to throw ends the reading. */
  function ReadSession(doc: Document, nowMs: int): Completion<Reads> {
    match GetCookie(doc, nowMs, TOKEN_COOKIE)
    case Throw(e) => Throw(e)
    case Normal(token) =>
      match GetCookie(doc, nowMs, USER_COOKIE)
      case Throw(e) => Throw(e)
      case Normal(userData) => Normal(Reads(token, userData))
  }

  /**
   * `initializeAuth`: with both cookies present, a verified token and a user
   * cookie that parses set the user; a failed token or a parse error delete
   * both cookies. Anything thrown is caught, and `loading` ends false in
   * every case.
   */
  function Restore(w: World, env: Env): (r: World)
    ensures !r.state.loading
  {
    var done := AuthState(w.state.user, false);
    match ReadSession(w.doc, env.nowMs)
    case Throw(_) => World(done, w.doc)
    case Normal(got) =>
      if got.token.Some? && got.userData.Some? then
        if Token.VerifyToken(got.token.value, env.decode, env.nowMs) then
          match env.parseUser(got.userData.value)
          case Parsed(u) => World(AuthState(u, false), w.doc)
          case Throws => World(done, ClearDocument(w.doc, env.nowMs))
        else World(done, ClearDocument(w.doc, env.nowMs))
      else World(done, w.doc)
  }

  /** Both deletions on whatever the document is; only a page has cookies to delete. */
  function ClearDocument(doc: Document, nowMs: int): Document {
    match doc
    case Page(jar) => Page(ClearSession(jar, nowMs))
    case _ => doc
  }

  /**
   * `login(user, token)`: both cookies written with the default seven-day
   * lifetime, then the user set. There is no role check here. Without a
   * page, the first cookie assignment throws and nothing changes.
   */
  function Login(w: World, env: Env, user: User, token: string): (r: Completion<World>)
    ensures r.Normal? <==> w.doc.Page?
    ensures r.Normal? ==> r.value.state == AuthState(Some(user), w.state.loading) && r.value.doc.Page?
    ensures r.Normal? && WellFormed(w.doc.jar) ==> WellFormed(r.value.doc.jar)
  {
    match w.doc
    case Page(jar) =>
      var jar1 := Store(jar, SetCookie(TOKEN_COOKIE, token, DEFAULT_DAYS, env.nowMs, env.https), env.nowMs);
      var jar2 := Store(jar1, SetCookie(USER_COOKIE, env.serializeUser(user), DEFAULT_DAYS, env.nowMs, env.https), env.nowMs);
      Normal(World(AuthState(Some(user), w.state.loading), Page(jar2)))
    case NoDocument => Throw(ReferenceError)
    case CookieAccessDenied => Throw(SecurityError)
  }

  /** `logout()`: both cookies deleted, then the user cleared; without a page, the deletion throws. */
  function Logout(w: World, nowMs: int): (r: Completion<World>)
    ensures r.Normal? <==> w.doc.Page?
    ensures r.Normal? ==> r.value.state == AuthState(None, w.state.loading)
  {
    match w.doc
    case Page(jar) => Normal(World(AuthState(None, w.state.loading), Page(ClearSession(jar, nowMs))))
    case NoDocument => Throw(ReferenceError)
    case CookieAccessDenied => Throw(SecurityError)
  }

  // ---------------------------------------------------------------------------
  // Restore, read through the stored cookies.

  /** On a page, the provider reads exactly the stored session cookies. */
  lemma ReadSessionOnPage(jar: Jar, nowMs: int)
    requires WellFormed(jar)
    ensures ReadSession(Page(jar), nowMs)
            == Normal(Reads(StoredValue(jar, nowMs, TOKEN_COOKIE), StoredValue(jar, nowMs, USER_COOKIE)))
  {
    SessionNamesValid();
    assert GetCookie(Page(jar), nowMs, TOKEN_COOKIE) == Normal(StoredValue(jar, nowMs, TOKEN_COOKIE));
    assert GetCookie(Page(jar), nowMs, USER_COOKIE) == Normal(StoredValue(jar, nowMs, USER_COOKIE));
  }

  /** Both session cookie names are valid cookie names. */
  lemma SessionNamesValid()
    ensures ValidName(TOKEN_COOKIE) && ValidName(USER_COOKIE)
  {
  }

  /** The restored session signs a user in only from two stored cookies, a verified token and a user cookie that parses to that user. */
  lemma RestoreSignsInOnlyWhenValid(s: AuthState, jar: Jar, env: Env, u: User)
    requires WellFormed(jar) && s.user.None?
    requires Restore(World(s, Page(jar)), env).state.user == Some(u)
    ensures StoredValue(jar, env.nowMs, TOKEN_COOKIE).Some?
    ensures StoredValue(jar, env.nowMs, USER_COOKIE).Some?
    ensures Token.VerifyToken(StoredValue(jar, env.nowMs, TOKEN_COOKIE).value, env.decode, env.nowMs)
    ensures env.parseUser(StoredValue(jar, env.nowMs, USER_COOKIE).value) == Parsed(Some(u))
    ensures Restore(World(s, Page(jar)), env).doc == Page(jar)
  {
    ReadSessionOnPage(jar, env.nowMs);
  }

  /** Conversely, those conditions restore exactly that user and leave the cookies alone. */
  lemma RestoreSignsInWhenValid(s: AuthState, jar: Jar, env: Env, token: string, data: string, u: Option<User>)
    requires WellFormed(jar)
    requires StoredValue(jar, env.nowMs, TOKEN_COOKIE) == Some(token)
    requires StoredValue(jar, env.nowMs, USER_COOKIE) == Some(data)
    requires Token.VerifyToken(token, env.decode, env.nowMs)
    requires env.parseUser(data) == Parsed(u)
    ensures Restore(World(s, Page(jar)), env) == World(AuthState(u, false), Page(jar))
  {
    ReadSessionOnPage(jar, env.nowMs);
  }

  /**
   * With both cookies present, a token that fails or a user cookie that does
   * not parse deletes both cookies, and the user stays as it was.
   */
  lemma RestoreClearsBadSession(s: AuthState, jar: Jar, env: Env, token: string, data: string)
    requires WellFormed(jar)
    requires StoredValue(jar, env.nowMs, TOKEN_COOKIE) == Some(token)
    requires StoredValue(jar, env.nowMs, USER_COOKIE) == Some(data)
    requires !Token.VerifyToken(token, env.decode, env.nowMs) || env.parseUser(data) == Throws
    ensures Restore(World(s, Page(jar)), env) == World(AuthState(s.user, false), Page(ClearSession(jar, env.nowMs)))
  {
    ReadSessionOnPage(jar, env.nowMs);
  }

  /** With either cookie missing, restore deletes nothing and signs nobody in. */
  lemma RestoreKeepsCookiesWhenOneMissing(s: AuthState, jar: Jar, env: Env)
    requires WellFormed(jar)
    requires StoredValue(jar, env.nowMs, TOKEN_COOKIE).None? || StoredValue(jar, env.nowMs, USER_COOKIE).None?
    ensures Restore(World(s, Page(jar)), env) == World(AuthState(s.user, false), Page(jar))
  {
    ReadSessionOnPage(jar, env.nowMs);
  }

  /** Without a readable document, restore only ends loading: `null` cookies, or the error caught. */
  lemma RestoreWithoutCookies(s: AuthState, doc: Document, env: Env)
    requires !doc.Page?
    ensures Restore(World(s, doc), env) == World(AuthState(s.user, false), doc)
  {
  }

  /** Clearing leaves nothing to read under either session cookie, now or later, and other cookies untouched. */
  lemma ClearSessionEffect(jar: Jar, nowMs: int, laterMs: int, other: string)
    requires nowMs >= 0
    requires other != TOKEN_COOKIE && other != USER_COOKIE
    ensures StoredValue(ClearSession(jar, nowMs), laterMs, TOKEN_COOKIE) == None
    ensures StoredValue(ClearSession(jar, nowMs), laterMs, USER_COOKIE) == None
    ensures StoredValue(ClearSession(jar, nowMs), laterMs, other) == StoredValue(jar, laterMs, other)
  {
  }

  // ---------------------------------------------------------------------------
  // Login, logout and their round trips.

  /**
   * A login followed, before the cookies expire, by a fresh mount restores
   * the same user: the cookies carry the token and the user's JSON, provided
   * neither contains a `;`, the token still verifies and the JSON parses back.
   */
  lemma LoginThenRestore(w: World, env: Env, user: User, token: string, later: Env, s: AuthState)
    requires w.doc.Page? && WellFormed(w.doc.jar)
    requires token != "" && ';' !in token
    requires env.serializeUser(user) != "" && ';' !in env.serializeUser(user)
    requires env.nowMs <= later.nowMs < ExpiryAfter(env.nowMs, DEFAULT_DAYS)
    requires Token.VerifyToken(token, later.decode, later.nowMs)
    requires later.parseUser(env.serializeUser(user)) == Parsed(Some(user))
    ensures Login(w, env, user, token).Normal?
    ensures Restore(World(s, Login(w, env, user, token).value.doc), later).state.user == Some(user)
  {
    var jar := Login(w, env, user, token).value.doc.jar;
    var data := env.serializeUser(user);
    var jar1 := Store(w.doc.jar, SetCookie(TOKEN_COOKIE, token, DEFAULT_DAYS, env.nowMs, env.https), env.nowMs);
    SetThenStored(w.doc.jar, TOKEN_COOKIE, token, DEFAULT_DAYS, env.nowMs, env.https, later.nowMs);
    StoreOtherName(jar1, SetCookie(USER_COOKIE, data, DEFAULT_DAYS, env.nowMs, env.https), env.nowMs, later.nowMs, TOKEN_COOKIE);
    SetThenStored(jar1, USER_COOKIE, data, DEFAULT_DAYS, env.nowMs, env.https, later.nowMs);
    JsSplit.FirstPieceWithout(token, ';');
    JsSplit.FirstPieceWithout(data, ';');
    RestoreSignsInWhenValid(s, jar, later, token, data, Some(user));
  }

  /** A logout leaves no session cookie behind and signs the user out. */
  lemma LogoutClears(w: World, nowMs: int, laterMs: int)
    requires w.doc.Page? && nowMs >= 0
    ensures Logout(w, nowMs).Normal?
    ensures Logout(w, nowMs).value.state.user.None?
    ensures StoredValue(Logout(w, nowMs).value.doc.jar, laterMs, TOKEN_COOKIE) == None
    ensures StoredValue(Logout(w, nowMs).value.doc.jar, laterMs, USER_COOKIE) == None
  {
    ClearSessionEffect(w.doc.jar, nowMs, laterMs, "");
  }

  /** Logging out twice is the same as logging out once. */
  lemma LogoutIdempotent(w: World, nowMs: int, againMs: int)
    requires w.doc.Page? && nowMs >= 0 && againMs >= 0
    ensures Logout(Logout(w, nowMs).value, againMs) == Logout(w, nowMs)
  {
    ClearSessionAgain(w.doc.jar, nowMs, againMs);
  }

  /** Clearing an already cleared jar changes nothing. */
  lemma ClearSessionAgain(jar: Jar, nowMs: int, againMs: int)
    requires nowMs >= 0 && againMs >= 0
    ensures ClearSession(ClearSession(jar, nowMs), againMs) == ClearSession(jar, nowMs)
  {
    SessionNamesValid();
    var once := ClearSession(jar, nowMs);
    assert FindCookie(once, TOKEN_COOKIE).None?;
    assert FindCookie(once, USER_COOKIE).None?;
    var first := Store(once, DeleteCookie(TOKEN_COOKIE), againMs);
    assert first == Remove(once, TOKEN_COOKIE);
    RemoveAbsent(once, TOKEN_COOKIE);
    assert Store(first, DeleteCookie(USER_COOKIE), againMs) == Remove(once, USER_COOKIE);
    RemoveAbsent(once, USER_COOKIE);
  }
}

=== FILE: token.dfy ===
/**
 * `verifyToken`: the client-side expiry check on a JSON web token. Only the
 * second dot-separated segment is read, base64 and JSON decoding are a
 * parameter, and no signature or segment count is checked.
 */
module Token {
  import opened Wrappers
  import opened JsSplit

  /**
   * The decoded payload, reduced to what the check reads: `exp` as the `>`
   * comparison sees it, that is the JavaScript `ToNumber` of the claim, in
   * seconds. A string of digits or a one-element array of a number counts as
   * that number and `null` as 0; None stands for `NaN` (a missing claim, or
   * one that does not convert), against which every comparison is false.
   */
  datatype Claims = Claims(exp: Option<real>)

  /** `JSON.parse(atob(segment))` followed by `ToNumber` of `exp`: the claims, or None when either call throws. */
  type PayloadDecoder = string -> Option<Claims>

  /**
   * `token.split('.')[1]`. Without a dot that index is `undefined`, which
   * `atob` turns into the text "undefined" before decoding it.
   */
  function PayloadSegment(token: string): string {
    var parts := Split(token, ".");
    if |parts| >= 2 then parts[1] else "undefined"
  }

  /** A token without a dot has no second segment: the decoder is handed "undefined". */
  lemma SegmentWithoutDot(token: string)
    requires '.' !in token
    ensures PayloadSegment(token) == "undefined"
  {
    SplitWithout(token, '.');
  }

  /** The payload segment is what lies between the first and the second dot, or after the only dot. */
  lemma SegmentBetweenDots(header: string, payload: string, rest: string)
    requires '.' !in header && '.' !in payload
    ensures PayloadSegment(header + "." + payload) == payload
    ensures PayloadSegment(header + "." + payload + "." + rest) == payload
  {
    assert header + "." + payload == header + ['.'] + payload;
    SplitCons(header, '.', payload);
    SplitWithout(payload, '.');
    assert header + "." + payload + "." + rest == header + ['.'] + (payload + ['.'] + rest);
    SplitCons(header, '.', payload + ['.'] + rest);
    SplitCons(payload, '.', rest);
  }

  /**
   * `verifyToken(token)` at `nowMs`: true when the payload decodes and its
   * `exp` lies after `Date.now() / 1000`; every failure, thrown or not, is false.
   */
  function VerifyToken(token: string, decode: PayloadDecoder, nowMs: int): (valid: bool)
    ensures valid ==> decode(PayloadSegment(token)).Some?
    ensures valid ==> decode(PayloadSegment(token)).value.exp.Some?
  {
    match decode(PayloadSegment(token))
    case None => false
    case Some(claims) =>
      match claims.exp
      case None => false
      case Some(exp) => exp > nowMs as real / 1000.0
  }

  /** With an `exp` that converts to a number, the token is valid exactly while the clock, in milliseconds, is before `exp * 1000`. */
  lemma ValidUntilExpiry(token: string, decode: PayloadDecoder, nowMs: int, exp: real)
    requires decode(PayloadSegment(token)) == Some(Claims(Some(exp)))
    ensures VerifyToken(token, decode, nowMs) <==> (nowMs as real) < exp * 1000.0
  {
  }

  /** A token that is valid now was valid at every earlier instant. */
  lemma ValidEarlier(token: string, decode: PayloadDecoder, earlierMs: int, nowMs: int)
    requires earlierMs <= nowMs
    requires VerifyToken(token, decode, nowMs)
    ensures VerifyToken(token, decode, earlierMs)
  {
  }

  /**
   * Header and signature play no part: two tokens with the same payload
   * segment verify alike, whatever follows the second dot, and a token with
   * a single dot is read the same way.
   */
  lemma OnlyPayloadIsRead(h1: string, h2: string, payload: string, s1: string, s2: string,
                          decode: PayloadDecoder, nowMs: int)
    requires '.' !in h1 && '.' !in h2 && '.' !in payload
    ensures VerifyToken(h1 + "." + payload + "." + s1, decode, nowMs)
            == VerifyToken(h2 + "." + payload + "." + s2, decode, nowMs)
    ensures VerifyToken(h1 + "." + payload + "." + s1, decode, nowMs)
            == VerifyToken(h2 + "." + payload, decode, nowMs)
  {
    SegmentBetweenDots(h1, payload, s1);
    SegmentBetweenDots(h2, payload, s2);
  }
}

=== FILE: topics.dfy ===
/**
 * The topic form: its validation schema and its default values. The schema
 * checks, field by field, that the title and the question are non-empty and
 * that the type is one of the two writing tasks; nothing is trimmed.
 */
module TopicForm {
  import opened Wrappers
  import JsTrim

  /** A writing topic, as the server sends it. */
  datatype Topic = Topic(id: string, title: string, question: string, taskType: string, createdAt: string)

  /** The form's values. */
  datatype FormValues = FormValues(title: string, question: string, taskType: string)

  /** The two writing tasks the type field accepts. */
  const TASK_TYPES: seq<string> := ["TASK_ONE", "TASK_TWO"]

  /**
   * One validation issue: the field it concerns and the message the schema
   * gives it (none for the type, whose message is the schema library's own).
   */
  datatype Issue = Issue(field: string, message: Option<string>)

  /** The issues of one field's check, empty when it passes. */
  function Check(ok: bool, field: string, message: Option<string>): seq<Issue> {
    if ok then [] else [Issue(field, message)]
  }

  /** The fields the issues concern. */
  function Fields(issues: seq<Issue>): set<string> {
    set i | 0 <= i < |issues| :: issues[i].field
  }

  lemma FieldsConcat(a: seq<Issue>, b: seq<Issue>)
    ensures Fields(a + b) == Fields(a) + Fields(b)
  {
    forall f | f in Fields(a) + Fields(b) ensures f in Fields(a + b) {
      if f in Fields(a) {
        var i :| 0 <= i < |a| && a[i].field == f;
        assert (a + b)[i].field == f;
      } else {
        var i :| 0 <= i < |b| && b[i].field == f;
        assert (a + b)[|a| + i].field == f;
      }
    }
  }

  lemma FieldsOfOne(x: Issue)
    ensures Fields([x]) == {x.field}
  {
    assert [x][0] == x;
  }

  /** `formSchema`: every failing field reports one issue, in the schema's field order. */
  function Validate(v: FormValues): (issues: seq<Issue>)
    ensures |issues| <= 3
    ensures "title" in Fields(issues) <==> |v.title| < 1
    ensures "question" in Fields(issues) <==> |v.question| < 1
    ensures "type" in Fields(issues) <==> v.taskType !in TASK_TYPES
    ensures forall i :: 0 <= i < |issues| && issues[i].field == "title" ==> issues[i].message == Some("Title is required")
    ensures forall i :: 0 <= i < |issues| && issues[i].field == "question" ==> issues[i].message == Some("Question is required")
  {
    var t := Check(|v.title| >= 1, "title", Some("Title is required"));
    var q := Check(|v.question| >= 1, "question", Some("Question is required"));
    var k := Check(v.taskType in TASK_TYPES, "type", None);
    FieldsConcat(t, q);
    FieldsConcat(t + q, k);
    FieldsOfOne(Issue("title", Some("Title is required")));
    FieldsOfOne(Issue("question", Some("Question is required")));
    FieldsOfOne(Issue("type", None));
    t + q + k
  }

  /** The values the schema accepts, stated on their own. */
  predicate Acceptable(v: FormValues) {
    v.title != [] && v.question != [] && (v.taskType == "TASK_ONE" || v.taskType == "TASK_TWO")
  }

  /** The schema accepts exactly the acceptable values. */
  lemma ValidateAccepts(v: FormValues)
    ensures Validate(v) == [] <==> Acceptable(v)
  {
    assert Fields([]) == {};
  }

  /** The schema does not trim: a title or question of spaces only passes. */
  lemma BlankTextPasses()
    ensures Validate(FormValues(" ", " ", "TASK_TWO")) == []
  {
  }

  /** The default values: the topic's own when editing, empty text and the first task when creating. */
  function Defaults(topic: Option<Topic>): (v: FormValues)
    ensures topic.None? ==> v == FormValues("", "", "TASK_ONE")
    ensures topic.Some? ==> v.title == topic.value.title && v.question == topic.value.question
    ensures topic.Some? ==> v.taskType == JsTrim.OrElse(topic.value.taskType, "TASK_ONE")
  {
    match topic
    case None => FormValues("", "", "TASK_ONE")
    case Some(t) => FormValues(JsTrim.OrElse(t.title, ""), JsTrim.OrElse(t.question, ""), JsTrim.OrElse(t.taskType, "TASK_ONE"))
  }

  /** `form.handleSubmit(onSubmit)`: the values reach `onSubmit` only when the schema accepts them. */
  function Submit(v: FormValues): (r: Option<FormValues>)
    ensures r.Some? <==> Acceptable(v)
    ensures r.Some? ==> r.value == v
  {
    ValidateAccepts(v);
    if Validate(v) == [] then Some(v) else None
  }

  /** A create form submitted untouched is refused for its empty title and question, and for nothing else. */
  lemma UntouchedCreateRefused()
    ensures Validate(Defaults(None)) == [Issue("title", Some("Title is required")), Issue("question", Some("Question is required"))]
    ensures Submit(Defaults(None)).None?
  {
  }

  /** An edit form submitted untouched sends the topic's own fields whenever the topic is itself acceptable. */
  lemma UntouchedEditResubmits(t: Topic)
    requires Acceptable(FormValues(t.title, t.question, t.taskType))
    ensures Submit(Defaults(Some(t))) == Some(FormValues(t.title, t.question, t.taskType))
  {
  }
}

/**
 * The topics page: a fixed query, the topic dialog opened for a new topic or
 * for an existing one, and the delete dialog.
 */
module TopicsPage {
  import opened Wrappers
  import opened TopicForm
  import UserUtils
  import Paging

  /** The topics query's filters. */
  datatype TopicFilters = TopicFilters(page: int, limit: int, sortBy: string, sortOrder: string)

  /** The page never changes its filters: page 1 with room for 100 topics, newest first. */
  const FILTERS: TopicFilters := TopicFilters(1, 100, "createdAt", "desc")

  /** The page's state. */
  datatype TopicsState = TopicsState(
    selected: Option<Topic>,
    toDelete: Option<Topic>,
    dialogOpen: bool,
    deleteDialogOpen: bool)

  /** A mutation the page starts. */
  datatype Mutation = CreateTopic(data: FormValues) | UpdateTopic(id: string, data: FormValues) | DeleteTopic(id: string)

  /** An HTTP request a mutation sends. */
  datatype Request = Request(verb: string, url: string, body: Option<FormValues>)

  /** Nothing selected, both dialogs closed. */
  function InitialState(): (s: TopicsState)
    ensures s.selected.None? && s.toDelete.None? && !s.dialogOpen && !s.deleteDialogOpen
  {
    TopicsState(None, None, false, false)
  }

  /** `handleCreateTopic`: the dialog opens with no topic selected. */
  function HandleCreate(s: TopicsState): (r: TopicsState)
    ensures r.selected.None? && r.dialogOpen
    ensures r.toDelete == s.toDelete && r.deleteDialogOpen == s.deleteDialogOpen
  {
    s.(selected := None, dialogOpen := true)
  }

  /** `handleEditTopic`: the dialog opens on the topic. */
  function HandleEdit(s: TopicsState, t: Topic): (r: TopicsState)
    ensures r.selected == Some(t) && r.dialogOpen
    ensures r.toDelete == s.toDelete && r.deleteDialogOpen == s.deleteDialogOpen
  {
    s.(selected := Some(t), dialogOpen := true)
  }

  /** `handleDeleteTopic`: the delete dialog opens on the topic. */
  function HandleDelete(s: TopicsState, t: Topic): (r: TopicsState)
    ensures r.toDelete == Some(t) && r.deleteDialogOpen
    ensures r.selected == s.selected && r.dialogOpen == s.dialogOpen
  {
    s.(toDelete := Some(t), deleteDialogOpen := true)
  }

  /** The topic dialog closed by its cancel button or its close control: the selection stays. */
  function CloseDialog(s: TopicsState): (r: TopicsState)
    ensures !r.dialogOpen && r.(dialogOpen := s.dialogOpen) == s
  {
    s.(dialogOpen := false)
  }

  /**
   * `handleSubmit`: an update of the selected topic, or a create when none is
   * selected. The dialog closes and the selection is left as it was.
   */
  function HandleSubmit(s: TopicsState, data: FormValues): (r: (TopicsState, Mutation))
    ensures s.selected.Some? <==> r.1.UpdateTopic?
    ensures s.selected.Some? ==> r.1 == UpdateTopic(s.selected.value.id, data)
    ensures s.selected.None? ==> r.1 == CreateTopic(data)
    ensures !r.0.dialogOpen && r.0.selected == s.selected
    ensures r.0.toDelete == s.toDelete && r.0.deleteDialogOpen == s.deleteDialogOpen
  {
    var m := match s.selected
      case Some(t) => UpdateTopic(t.id, data)
      case None => CreateTopic(data);
    (s.(dialogOpen := false), m)
  }

  /** `confirmDelete`: with a pending topic, one delete for its id and the delete dialog reset; otherwise nothing. */
  function ConfirmDelete(s: TopicsState): (r: (TopicsState, Option<Mutation>))
    ensures s.toDelete.None? ==> r == (s, None)
    ensures s.toDelete.Some? ==> r.1 == Some(DeleteTopic(s.toDelete.value.id))
    ensures s.toDelete.Some? ==> r.0.toDelete.None? && !r.0.deleteDialogOpen
    ensures r.0.selected == s.selected && r.0.dialogOpen == s.dialogOpen
  {
    match s.toDelete
    case None => (s, None)
    case Some(t) => (s.(deleteDialogOpen := false, toDelete := None), Some(DeleteTopic(t.id)))
  }

  /** The request each mutation sends. */
  function RequestOf(m: Mutation): Request {
    match m
    case CreateTopic(data) => Request("POST", "/ielts-writing", Some(data))
    case UpdateTopic(id, data) => Request("PATCH", "/ielts-writing/" + id, Some(data))
    case DeleteTopic(id) => Request("DELETE", "/ielts-writing/" + id, None)
  }

  /** `getTaskTypeBadge`: the first task is labelled "Task 1", every other type "Task 2". */
  function TaskBadge(taskType: string): (r: (string, UserUtils.Variant))
    ensures r.0 == "Task 1" <==> taskType == "TASK_ONE"
    ensures r.0 == "Task 2" <==> taskType != "TASK_ONE"
    ensures r.1 == UserUtils.Secondary <==> taskType == "TASK_ONE"
  {
    if taskType == "TASK_ONE" then ("Task 1", UserUtils.Secondary) else ("Task 2", UserUtils.Default)
  }

  /** The task labels the form's type menu shows. */
  const MENU_LABELS: seq<(string, string)> := [("TASK_ONE", "Task 1"), ("TASK_TWO", "Task 2")]

  /** The table's badge for each accepted type carries the label the form's menu shows for it. */
  lemma BadgeMatchesMenu(i: int)
    requires 0 <= i < |MENU_LABELS|
    ensures MENU_LABELS[i].0 == TASK_TYPES[i]
    ensures TaskBadge(MENU_LABELS[i].0).0 == MENU_LABELS[i].1
  {
  }

  /** The table's row number: `index + 1`. */
  function RowNumber(index: int): (n: int)
    ensures n == Paging.RowNumber(FILTERS.page, FILTERS.limit, index)
  {
    index + 1
  }

  /** The table shows the topics only when they arrived and there is at least one. */
  datatype Content = ErrorMessage | Skeleton | Rows(topics: seq<Topic>) | EmptyState

  /** What the table card shows: an error first, then the loading skeleton, then the rows or the empty state. */
  function ShowContent(error: bool, loading: bool, data: Option<seq<Topic>>): (c: Content)
    ensures c.Rows? <==> !error && !loading && data.Some? && |data.value| > 0
    ensures c.Rows? ==> c.topics == data.value
    ensures c.ErrorMessage? <==> error
  {
    if error then ErrorMessage
    else if loading then Skeleton
    else if data.Some? && |data.value| > 0 then Rows(data.value)
    else EmptyState
  }

  /** Editing a topic and submitting sends a PATCH with the form's values for that topic's id. */
  lemma EditThenSubmit(s: TopicsState, t: Topic, data: FormValues)
    ensures RequestOf(HandleSubmit(HandleEdit(s, t), data).1) == Request("PATCH", "/ielts-writing/" + t.id, Some(data))
  {
  }

  /** Creating and submitting sends a POST with the form's values. */
  lemma CreateThenSubmit(s: TopicsState, data: FormValues)
    ensures RequestOf(HandleSubmit(HandleCreate(s), data).1) == Request("POST", "/ielts-writing", Some(data))
  {
  }

  /**
   * The selection outlives the dialog: after an edit is submitted, or the
   * dialog is cancelled, the state still names the topic, and a submit from
   * it would update that topic again. The page never shows that stale
   * selection, because the dialog opens only through create, which clears
   * it, or edit, which replaces it.
   */
  lemma SelectionOutlivesDialog(s: TopicsState, t: Topic, u: Topic, d1: FormValues, d2: FormValues)
    ensures HandleSubmit(HandleSubmit(HandleEdit(s, t), d1).0, d2).1 == UpdateTopic(t.id, d2)
    ensures HandleSubmit(CloseDialog(HandleEdit(s, t)), d2).1 == UpdateTopic(t.id, d2)
    ensures HandleSubmit(HandleCreate(HandleSubmit(HandleEdit(s, t), d1).0), d2).1 == CreateTopic(d2)
    ensures HandleSubmit(HandleEdit(HandleSubmit(HandleEdit(s, t), d1).0, u), d2).1 == UpdateTopic(u.id, d2)
  {
  }

  /** Asking to delete a topic and confirming sends exactly one delete; confirming again sends nothing. */
  lemma DeleteOnce(s: TopicsState, t: Topic)
    ensures ConfirmDelete(HandleDelete(s, t)).1 == Some(DeleteTopic(t.id))
    ensures ConfirmDelete(ConfirmDelete(HandleDelete(s, t)).0).1.None?
  {
  }
}

=== FILE: user_management.dfy ===
/**
 * The user list page: its filter record and the handlers that change it,
 * row numbering and the range label, the previous/next buttons, and the
 * delete dialog with its super-admin guard.
 */
module UserManagement {
  import opened Wrappers
  import JsNumber
  import Paging

  datatype SortOrder = Asc | Desc

  /** The query filters; every field may be absent. */
  datatype UserFilters = UserFilters(
    page: Option<int>,
    limit: Option<int>,
    search: Option<string>,
    role: Option<string>,
    status: Option<string>,
    sortBy: Option<string>,
    sortOrder: Option<SortOrder>)

  /** The pagination block of the list response, as far as this page reads it. */
  datatype Pagination = Pagination(total: int, totalPages: int, hasNext: bool, hasPrev: bool)

  /** A row of the list. */
  datatype ListedUser = ListedUser(id: string, phone: string, role: string, status: string)

  /** The filters on first render: page 1 of 10, newest first. */
  function InitialFilters(): (f: UserFilters)
    ensures f.page == Some(1) && f.limit == Some(10)
    ensures f.sortBy == Some("createdAt") && f.sortOrder == Some(Desc)
    ensures f.search.None? && f.role.None? && f.status.None?
  {
    UserFilters(Some(1), Some(10), None, None, None, Some("createdAt"), Some(Desc))
  }

  /** A menu choice as a filter value: "all" clears the filter. */
  function MenuChoice(choice: string): (v: Option<string>)
    ensures v.None? <==> choice == "all"
    ensures v.Some? ==> v.value == choice
  {
    if choice == "all" then None else Some(choice)
  }

  /** `handleSearch`: the search term is set and the list goes back to page 1. */
  function OnSearch(f: UserFilters, term: string): (r: UserFilters)
    ensures r.search == Some(term) && r.page == Some(1)
    ensures r.(search := f.search, page := f.page) == f
  {
    f.(search := Some(term), page := Some(1))
  }

  /** `handleRoleFilter`. */
  function OnRoleFilter(f: UserFilters, choice: string): (r: UserFilters)
    ensures r.role == MenuChoice(choice) && r.page == Some(1)
    ensures r.(role := f.role, page := f.page) == f
  {
    f.(role := MenuChoice(choice), page := Some(1))
  }

  /** `handleStatusFilter`. */
  function OnStatusFilter(f: UserFilters, choice: string): (r: UserFilters)
    ensures r.status == MenuChoice(choice) && r.page == Some(1)
    ensures r.(status := f.status, page := f.page) == f
  {
    f.(status := MenuChoice(choice), page := Some(1))
  }

  /** `handlePageChange`. */
  function OnPageChange(f: UserFilters, page: int): (r: UserFilters)
    ensures r.page == Some(page)
    ensures r.(page := f.page) == f
  {
    f.(page := Some(page))
  }

  /** `filters.page || 1`. */
  function CurrentPage(f: UserFilters): int {
    JsNumber.OrDefault(f.page, 1)
  }

  /** `filters.limit || 10`. */
  function PageSize(f: UserFilters): int {
    JsNumber.OrDefault(f.limit, 10)
  }

  /** `getRowNumber(index)`. */
  function RowNumber(f: UserFilters, index: int): int {
    Paging.RowNumber(CurrentPage(f), PageSize(f), index)
  }

  /** The first and last numbers of the "showing X to Y" label. */
  function RangeLabel(f: UserFilters, p: Pagination): (int, int) {
    (Paging.RangeStart(CurrentPage(f), PageSize(f)), Paging.RangeEnd(CurrentPage(f), PageSize(f), p.total))
  }

  /** The pagination bar appears only when there is more than one page. */
  predicate ShowsPagination(p: Pagination) {
    p.totalPages > 1
  }

  /** The previous button: disabled without a previous page, otherwise one page back from `page || 1`. */
  function OnPrevious(f: UserFilters, p: Pagination): (r: Option<UserFilters>)
    ensures r.Some? <==> p.hasPrev
    ensures r.Some? ==> r.value == OnPageChange(f, CurrentPage(f) - 1)
  {
    if p.hasPrev then Some(OnPageChange(f, CurrentPage(f) - 1)) else None
  }

  /** The next button: disabled without a next page, otherwise one page on from `page || 1`. */
  function OnNext(f: UserFilters, p: Pagination): (r: Option<UserFilters>)
    ensures r.Some? <==> p.hasNext
    ensures r.Some? ==> r.value == OnPageChange(f, CurrentPage(f) + 1)
  {
    if p.hasNext then Some(OnPageChange(f, CurrentPage(f) + 1)) else None
  }

  /** Every filter change sends the list back to page 1, keeping the page size and the sort. */
  lemma FilterChangesResetPage(f: UserFilters, text: string)
    ensures CurrentPage(OnSearch(f, text)) == 1
    ensures CurrentPage(OnRoleFilter(f, text)) == 1
    ensures CurrentPage(OnStatusFilter(f, text)) == 1
    ensures PageSize(OnSearch(f, text)) == PageSize(f)
    ensures PageSize(OnRoleFilter(f, text)) == PageSize(f)
    ensures PageSize(OnStatusFilter(f, text)) == PageSize(f)
  {
  }

  /** Absent, or zero, page and limit read as page 1 of 10. */
  lemma MissingPagingDefaults(f: UserFilters)
    requires f.page.None? || f.page == Some(0)
    requires f.limit.None? || f.limit == Some(0)
    ensures CurrentPage(f) == 1 && PageSize(f) == 10
    ensures RowNumber(f, 0) == 1
  {
  }

  /**
   * Going to the next page continues the numbering: the first row there is
   * numbered one past the last row of a full page here.
   */
  lemma NextPageContinuesNumbering(f: UserFilters, page: int)
    requires f.page == Some(page) && page >= 1
    ensures RowNumber(OnPageChange(f, page + 1), 0) == RowNumber(f, PageSize(f) - 1) + 1
  {
    Paging.RowsContiguous(page, PageSize(f));
  }

  /** Two different pages never show the same row number. */
  lemma PagesDoNotOverlap(f: UserFilters, g: UserFilters, i: int, j: int)
    requires f.limit == g.limit && PageSize(f) >= 1
    requires CurrentPage(f) != CurrentPage(g)
    requires 0 <= i < PageSize(f) && 0 <= j < PageSize(f)
    ensures RowNumber(f, i) != RowNumber(g, j)
  {
    Paging.RowsDisjoint(CurrentPage(f), CurrentPage(g), PageSize(f), i, j);
  }

  /** The label's ends are the numbers of the first and last rows the page holds, and the end never passes the total. */
  lemma RangeLabelMatchesRows(f: UserFilters, p: Pagination)
    requires CurrentPage(f) >= 1 && PageSize(f) >= 1
    requires Paging.RowsOnPage(CurrentPage(f), PageSize(f), p.total) > 0
    ensures RangeLabel(f, p).0 == RowNumber(f, 0)
    ensures RangeLabel(f, p).1 == RowNumber(f, Paging.RowsOnPage(CurrentPage(f), PageSize(f), p.total) - 1)
    ensures RangeLabel(f, p).1 <= p.total
  {
    Paging.RangeMatchesRows(CurrentPage(f), PageSize(f), p.total);
  }

  /**
   * When the server counts its pages as `ceil(total / limit)` with the
   * page's own size, the bar appears exactly when the list does not fit on
   * one page.
   */
  lemma PaginationShownIffOverflow(f: UserFilters, p: Pagination)
    requires PageSize(f) > 0 && p.total >= 0
    requires p.totalPages == (p.total + PageSize(f) - 1) / PageSize(f)
    ensures ShowsPagination(p) <==> p.total > PageSize(f)
  {
  }

  // ---------------------------------------------------------------------------
  // Deleting a user.

  /** The delete dialog: the user waiting for confirmation, and whether the dialog is open. */
  datatype DeleteDialog = DeleteDialog(pending: Option<ListedUser>, open: bool)

  /** Nothing pending, dialog closed. */
  function InitialDeleteDialog(): (d: DeleteDialog)
    ensures d.pending.None? && !d.open
  {
    DeleteDialog(None, false)
  }

  /** The delete button is disabled on super-admin rows. */
  predicate DeleteDisabled(u: ListedUser) {
    u.role == "SUPER_ADMIN"
  }

  /** A click on a row's delete button: `handleDeleteUser`, unless the button is disabled. */
  function ClickDelete(d: DeleteDialog, u: ListedUser): (r: DeleteDialog)
    ensures DeleteDisabled(u) ==> r == d
    ensures !DeleteDisabled(u) ==> r.pending == Some(u) && r.open
  {
    if DeleteDisabled(u) then d else DeleteDialog(Some(u), true)
  }

  /** Closing the dialog without confirming: the pending user stays recorded. */
  function DismissDialog(d: DeleteDialog): (r: DeleteDialog)
    ensures !r.open && r.pending == d.pending
  {
    d.(open := false)
  }

  /** `confirmDelete`: with a pending user, one delete request for its id, then the dialog is reset; otherwise nothing. */
  function ConfirmDelete(d: DeleteDialog): (r: (DeleteDialog, Option<string>))
    ensures d.pending.None? ==> r == (d, None)
    ensures d.pending.Some? ==> r.1 == Some(d.pending.value.id)
    ensures d.pending.Some? ==> r.0 == InitialDeleteDialog()
  {
    match d.pending
    case None => (d, None)
    case Some(u) => (DeleteDialog(None, false), Some(u.id))
  }

  /** The dialog actions. */
  datatype DialogAction = Click(user: ListedUser) | Dismiss | Confirm

  /** Applies dialog actions in order, collecting the ids sent for deletion. */
  function RunDialog(d: DeleteDialog, actions: seq<DialogAction>): (DeleteDialog, seq<string>)
    decreases |actions|
  {
    if actions == [] then (d, [])
    else
      var (next, sent) := match actions[0]
        case Click(u) => (ClickDelete(d, u), [])
        case Dismiss => (DismissDialog(d), [])
        case Confirm =>
          var (d2, id) := ConfirmDelete(d);
          (d2, if id.Some? then [id.value] else []);
      var (last, rest) := RunDialog(next, actions[1..]);
      (last, sent + rest)
  }

  /**
   * Through the page's buttons a super admin can never be deleted: every id
   * sent belongs to a clicked user whose row was not a super admin's.
   */
  lemma {:induction false} NoSuperAdminDeleted(d: DeleteDialog, actions: seq<DialogAction>)
    requires d.pending.None? || !DeleteDisabled(d.pending.value)
    ensures forall id :: id in RunDialog(d, actions).1 ==>
              (d.pending.Some? && d.pending.value.id == id)
              || exists i :: 0 <= i < |actions| && actions[i].Click? && actions[i].user.id == id
                             && !DeleteDisabled(actions[i].user)
    decreases |actions|
  {
    if actions != [] {
      var (next, sent) := match actions[0]
        case Click(u) => (ClickDelete(d, u), [])
        case Dismiss => (DismissDialog(d), [])
        case Confirm =>
          var (d2, id) := ConfirmDelete(d);
          (d2, if id.Some? then [id.value] else []);
      NoSuperAdminDeleted(next, actions[1..]);
      var rest := RunDialog(next, actions[1..]).1;
      assert RunDialog(d, actions).1 == sent + rest;
      forall id | id in RunDialog(d, actions).1
        ensures (d.pending.Some? && d.pending.value.id == id)
                || exists i :: 0 <= i < |actions| && actions[i].Click? && actions[i].user.id == id
                               && !DeleteDisabled(actions[i].user)
      {
        if id in rest && !(d.pending.Some? && d.pending.value.id == id) {
          if next.pending.Some? && next.pending.value.id == id {
            assert actions[0].Click? && actions[0].user.id == id && !DeleteDisabled(actions[0].user);
          } else {
            var k :| 0 <= k < |actions[1..]| && actions[1..][k].Click? && actions[1..][k].user.id == id
                     && !DeleteDisabled(actions[1..][k].user);
            assert actions[k + 1] == actions[1..][k];
          }
        }
      }
    }
  }
}

=== FILE: user_utils.dfy ===
/**
 * The user list's display mappers: badge variants for roles and statuses,
 * and the Uzbek status labels.
 */
module UserUtils {

  /** The badge styles the UI kit offers. */
  datatype Variant = Default | Destructive | Secondary | Outline

  /** The roles the role filter offers, in menu order. */
  const ROLES: seq<string> := ["USER", "ADMIN", "SUPER_ADMIN"]

  /** The status filter's options: each status value with the label the menu shows for it. */
  const STATUS_OPTIONS: seq<(string, string)> :=
    [("ACTIVE", "Faol"), ("INACTIVE", "Faol emas"), ("SUSPENDED", "Bloklangan")]

  /** `getRoleBadgeVariant`. */
  function RoleBadge(role: string): Variant {
    if role == "SUPER_ADMIN" then Destructive
    else if role == "ADMIN" then Default
    else Secondary
  }

  /** `getStatusBadgeVariant`. */
  function StatusBadge(status: string): Variant {
    if status == "ACTIVE" then Default
    else if status == "INACTIVE" then Secondary
    else if status == "SUSPENDED" then Destructive
    else Outline
  }

  /** `formatStatus`: the label of a known status, any other string as it is. */
  function FormatStatus(status: string): string {
    if status == "ACTIVE" then "Faol"
    else if status == "INACTIVE" then "Faol emas"
    else if status == "SUSPENDED" then "Bloklangan"
    else status
  }

  /** Which role gets which badge: super admins stand out, admins get the plain badge, and no role is outlined. */
  lemma RoleBadgeCases(role: string)
    ensures RoleBadge(role) == Destructive <==> role == "SUPER_ADMIN"
    ensures RoleBadge(role) == Default <==> role == "ADMIN"
    ensures RoleBadge(role) != Outline
  {
  }

  /** The three roles of the filter menu get three different badges. */
  lemma RoleBadgesDistinct(i: int, j: int)
    requires 0 <= i < |ROLES| && 0 <= j < |ROLES| && i != j
    ensures RoleBadge(ROLES[i]) != RoleBadge(ROLES[j])
  {
  }

  /** The outline badge marks exactly the statuses the menu does not know. */
  lemma OutlineIffUnknownStatus(status: string)
    ensures StatusBadge(status) == Outline <==> forall i :: 0 <= i < |STATUS_OPTIONS| ==> STATUS_OPTIONS[i].0 != status
  {
    if StatusBadge(status) != Outline {
      assert STATUS_OPTIONS[0].0 == "ACTIVE";
      assert STATUS_OPTIONS[1].0 == "INACTIVE";
      assert STATUS_OPTIONS[2].0 == "SUSPENDED";
    }
  }

  /** The three known statuses get three different badges. */
  lemma StatusBadgesDistinct(i: int, j: int)
    requires 0 <= i < |STATUS_OPTIONS| && 0 <= j < |STATUS_OPTIONS| && i != j
    ensures StatusBadge(STATUS_OPTIONS[i].0) != StatusBadge(STATUS_OPTIONS[j].0)
  {
  }

  /** The table's status labels are the filter menu's labels: each known status formats to its menu label. */
  lemma FormatStatusMatchesMenu(i: int)
    requires 0 <= i < |STATUS_OPTIONS|
    ensures FormatStatus(STATUS_OPTIONS[i].0) == STATUS_OPTIONS[i].1
  {
  }

  /** Any status outside the menu is shown as it is. */
  lemma FormatStatusPassesUnknown(status: string)
    requires forall i :: 0 <= i < |STATUS_OPTIONS| ==> STATUS_OPTIONS[i].0 != status
    ensures FormatStatus(status) == status
  {
    assert STATUS_OPTIONS[0].0 != status && STATUS_OPTIONS[1].0 != status && STATUS_OPTIONS[2].0 != status;
  }

  /**
   * Because unknown statuses pass through, the labels alone do not identify
   * the status: a status spelled "Faol" displays exactly like ACTIVE, though
   * its badge differs.
   */
  lemma LabelsCanCollide()
    ensures FormatStatus("Faol") == FormatStatus("ACTIVE")
    ensures StatusBadge("Faol") != StatusBadge("ACTIVE")
  {
  }
}

=== FILE: wrappers.dfy ===
/** The value-or-absent type the model uses wherever the source returns `null` or `undefined`. */
module Wrappers {

  datatype Option<+T> = None | Some(value: T) {

    /** The wrapped value, or `default` when absent (JavaScript's `x ?? default`). */
    function GetOr(default: T): T {
      match this
      case Some(v) => v
      case None => default
    }
  }
}
